=== FILE: README.md ===
# Snack vending machine — a Dafny model

This project models the core of a Java snack vending machine.

- **Change ledger** (`ChangeInventory`). A map from payable to count. Its greedy, stock-aware algorithm makes change from that stock. It scans the allowed notes and coins from the highest worth down, and each time takes one unit of the first one that fits the remaining amount and is still in stock.
- **Transaction state machine** (`SnackVendingMachine`). The customer's balance, the sales total, a 5 x 5 grid of snack slots, the change ledger, the selected slot, the confirm flag and the operating state. Its operations are select, insert money, dispense, refund / cancel, reset and switching the machine on and off.
- **Validators and counters.**
  - The bounded quantity counter of a snack slot (`SnackSlots`).
  - The two-stage checks of the coin, note and card slots (`CoinSlot`, `NoteSlot`, `CardSlot`): the kind of entry first, then its worth.

Money is whole US cents. A payable is `Coin(cents)`, `Note(cents)` or `Card(cents)`.
- The worths come from the constant names: `TEN_CENTS` is 10 and `TWENTY_DOLLARS_BILL` is 2000.
- The two prices the integration tests state are used: peanuts 300 and turkey sandwich 350.

Java exceptions become `Result` values. The Java machine changes fields before it may throw, so every machine operation that can fail returns a `Step`: the machine it leaves behind, together with its value or its error.

Files:
- `results.dfy`: `Option`, `Result`, `Outcome`.
- `payables.dfy`: the payable union, its worth, the coin and note constants, the payment errors.
- `coin_slot.dfy`, `note_slot.dfy`, `card_slot.dfy`: the money slots' allow-lists and validation.
- `snack_slot.dfy`: the slot counter.
- `change_inventory.dfy`: the ledger, the change algorithm (a recursive function `GreedyFrom` and a loop `ComputeChange` proved equal to it), and applying a change to the ledger.
- `vending_machine.dfy`: the machine record and its operations.
- `machine_properties.dfy`: what a dispense and a refund do in each outcome, and the machine invariant `Valid` that every operation keeps.
- `scenarios.dfy`: the integration-test scenarios, on concrete machines.

Behaviour of the Java code worth noting, which the model follows:
- A card is added to the change ledger like any other payable (`SnackVendingMachine.java:232`). It is never handed out as change, because it is not a change candidate.
- Dispensing does not check the confirm flag.
- Dispensing with no slot selected, or with a slot that holds no item, dereferences null in the Java code. The model reports this as the errors `NoSelection` and `NoItemInSlot`, with the machine unchanged.
- A confirmed request on a slot with a non-zero quantity but no item lowers the confirm flag and then dereferences the missing item to display it (`SnackVendingMachine.java:213-214`, `:359-361`). The model reports `NoItemInSlot`, with the slot selected, the state processing and the flag lowered.
- The change ledger is updated through the corrected deduction described under "Findings" (`ChangeInventory.Deduct`, used by `ChangeInventory.ApplyChange` and `ChangeInventory.ReflectInventoryDeductionsForChange`). The loop as written, on the as-written deduction, is `ChangeInventory.ReflectInventoryDeductionsAsWritten`. It fails only on a change entry of 0 or less for a payable the ledger lacks. The change `GetChange` returns never has such an entry, so the machine's two uses of the loop (`SnackVendingMachine.java:276`, `:316`) behave the same under both.
- No operation checks the operating state. An out-of-service machine accepts money and requests like a working one.
- Reset empties the machine but leaves the operating state, the confirm flag and the functional flag as they were.
- A refund whose change cannot be made leaves the state at refunding, with the balance and the ledger untouched. Its error propagates, even when the refund was the fallback of a dispense.

## Model

| member | source | states |
|---|---|---|
| ChangeInventory.Count | src/components/ChangeInventory.java:30-32 | the count of a payable the map holds is its entry, and 0 for a payable it does not hold |
| ChangeInventory.Add | src/components/ChangeInventory.java:34-37 | the count of the payable rises by exactly n (from 0 when absent), every other count is unchanged, and non-negative counts stay non-negative for n >= 0 |
| ChangeInventory.HasSufficientCountOfPayable | src/components/ChangeInventory.java:53-55 | true exactly when the count, 0 for a payable never added, is at least n |
| ChangeInventory.Deduct | src/components/ChangeInventory.java:39-43 | corrected deduction: with count >= n the count drops by n, otherwise the ledger is entirely unchanged; other counts never move and no count goes negative |
| ChangeInventory.DeductAsWritten | src/components/ChangeInventory.java:39-43 | the deduction as written fails with a null dereference exactly when the payable is absent and n <= 0, and otherwise agrees with Deduct |
| ChangeInventory.DeductAsWrittenFailsOnAbsentKey | src/components/ChangeInventory.java:39-43 | on the empty ledger with n = 0 the guard reports enough stock, yet the as-written deduction fails; the corrected one leaves every count as it was |
| ChangeInventory.Clear | src/components/ChangeInventory.java:45-47 | after clearing, every payable's count is 0 |
| ChangeInventory.PutPayableWithCount | src/components/ChangeInventory.java:49-51 | the payable's count becomes exactly n and no other count moves |
| ChangeInventory.AddThenDeductRestores | src/components/ChangeInventory.java:34-43 | adding n units and then deducting n restores every count, and the map itself when the payable was present |
| ChangeInventory.CandidatesAreSortedAllowList | src/components/ChangeInventory.java:58-60 | the candidate list holds exactly the allowed notes and coins and is as long as the two allow-lists together; with CandidatesShape it is their list sorted by decreasing worth |
| ChangeInventory.CandidatesShape | src/components/ChangeInventory.java:58-60 | no candidate is a card or the $100 bill, each is worth at least 10 cents, and the list is strictly descending |
| ChangeInventory.Pick | src/components/ChangeInventory.java:71-79 | one scan of the candidates yields, when it finds one, a candidate that fits the remainder and has stock left beyond what is allocated |
| ChangeInventory.PickIsFirstUsable | src/components/ChangeInventory.java:71-79 | one scan picks the candidate at the lowest index that fits the remainder and has stock left beyond what is allocated; it picks none exactly when no candidate qualifies |
| ChangeInventory.PickAt | src/components/ChangeInventory.java:71-79 | a scan that reaches a usable candidate past only unusable ones takes that candidate |
| ChangeInventory.PickIsHighestUsable | src/components/ChangeInventory.java:71-79 | the picked candidate has the highest worth of all usable ones |
| ChangeInventory.GreedyFrom | src/components/ChangeInventory.java:65-85 | nothing owed leaves the allocation as it is, and a run fails only while a positive amount is still owed |
| ChangeInventory.GreedyFromIsValid | src/components/ChangeInventory.java:68-85 | a successful greedy run yields only candidates, each at least once and at most as often as the ledger holds it |
| ChangeInventory.GreedyFromIsExact | src/components/ChangeInventory.java:68-85 | a successful greedy run adds exactly the owed remainder to the allocation's worth |
| ChangeInventory.GetChange | src/components/ChangeInventory.java:57-89 | amount <= 0 gives the empty map; success gives valid change worth exactly the amount, no entry above its stock, never a card or a $100 bill; failure only for a positive amount |
| ChangeInventory.GetChangeFailsOnlyWhenStuck | src/components/ChangeInventory.java:68-85 | a failure means the run passes, greedy step by greedy step, through a valid allocation that still owes a positive amount with no candidate usable for it |
| ChangeInventory.GreedyFromFailsWhenStuck | src/components/ChangeInventory.java:68-85 | a run from any allocation that passes through an allocation owing a positive amount, with no candidate usable for it, fails |
| ChangeInventory.StuckRunFails | src/components/ChangeInventory.java:68-85 | a run that passes through an allocation owing a positive amount, with no candidate usable for it, makes GetChange fail |
| ChangeInventory.GetChangeFailsIffStuck | src/components/ChangeInventory.java:68-85 | GetChange fails exactly when its run passes through such a stuck allocation: some scan finds nothing while something is owed |
| ChangeInventory.ComputeChange | src/components/ChangeInventory.java:57-89 | the nested while / for-with-break loop computes exactly GetChange |
| ChangeInventory.GreedyFromStaysBelow | src/components/ChangeInventory.java:71-77 | the greedy run never takes a payable worth more than the amount it started from |
| ChangeInventory.GetChangeNeedsEnoughSmallStock | src/components/ChangeInventory.java:68-85 | if the stock worth at most the amount each adds up to less than the amount, getting change fails |
| ChangeInventory.CanProduceChangeForAmount | src/components/ChangeInventory.java:91-98 | true exactly when GetChange succeeds, and always for amounts <= 0 |
| ChangeInventory.ApplyChange | src/components/ChangeInventory.java:100-104 | with the corrected deduction, a payable outside the change keeps its count, and a valid change lowers each count by exactly its entry |
| ChangeInventory.ReflectInventoryDeductionsForChange | src/components/ChangeInventory.java:100-104 | with the corrected deduction, deducting the change key by key, in any order, lowers each count by its entry when the stock covers it and leaves it otherwise, as ApplyChange states |
| ChangeInventory.ReflectInventoryDeductionsAsWritten | src/components/ChangeInventory.java:100-104 | the loop on the as-written deduction fails exactly when the change has an entry of 0 or less for a payable the ledger lacks, otherwise gives ApplyChange's counts, and never fails on a valid change; a fault hands back the ledger it reached, with the same keys and each count either untouched or as ApplyChange leaves it |
| ChangeInventory.ApplyGetChange | src/components/ChangeInventory.java:100-104 | applying a change GetChange produced lowers each count by exactly its allocation, lowers the ledger's worth by exactly the amount, and keeps counts non-negative |
| CoinSlot.IsSupportedPayableType | src/components/CoinSlot.java:43-47 | true exactly when the worth is 10, 25, 50 or 100 cents, whatever the payable's kind |
| CoinSlot.Validate | src/components/CoinSlot.java:28-41 | passes exactly for a coin of allowed worth; a non-coin fails InvalidEntry, never UnsupportedPayableType; a coin of another worth fails UnsupportedPayableType |
| NoteSlot.IsSupportedPayableType | src/components/NoteSlot.java:34-38 | true exactly when the worth is 2000 or 5000 cents, whatever the payable's kind |
| NoteSlot.Validate | src/components/NoteSlot.java:19-32 | passes exactly for a $20 or $50 note; a non-note fails InvalidEntry; any other note, the $100 bill among them, fails UnsupportedPayableType |
| CardSlot.IsSupportedPayableType | src/components/CardSlot.java:24-27 | always true |
| CardSlot.Validate | src/components/CardSlot.java:13-22 | passes exactly for a card, whatever its worth; never fails UnsupportedPayableType |
| SnackSlots.AddSnackItems | src/components/SnackSlot.java:45-51 | fails FullSnackSlot exactly when quantity + n exceeds capacity; otherwise quantity rises by exactly n; item and capacity are untouched and 0 <= quantity <= capacity is kept |
| SnackSlots.DispenseSnackItem | src/components/SnackSlot.java:53-59 | fails EmptySnackSlot exactly when quantity is 0; otherwise quantity drops by exactly 1; item and capacity are untouched and the bounds are kept |
| SnackSlots.AddThenDispenseRestores | src/components/SnackSlot.java:45-59 | stocking one item into a slot with room and dispensing one gives back the original slot |
| SnackVendingMachine.Initial | src/core/SnackVendingMachine.java:48-66 | a new machine has 25 empty slots, no balance, sales or selection, an empty ledger, the flag down, is functional and idle, and satisfies the invariant |
| SnackVendingMachine.SetFunctional | src/core/SnackVendingMachine.java:88-95 | switching on gives the idle state, switching off gives out-of-service, and nothing else changes |
| SnackVendingMachine.Confirm | src/components/Keypad.java:66-67 | the confirm flag is raised and nothing else changes |
| SnackVendingMachine.ProcessRequest | src/core/SnackVendingMachine.java:201-217 | the slot is selected and the state is processing in every outcome; unconfirmed fails first, then quantity 0 fails sold out, then a missing item fails NoItemInSlot; the flag is lowered exactly when both checks pass; success returns the slot's item |
| SnackVendingMachine.ValidateAt | src/core/SnackVendingMachine.java:229-230 | the slot's validation passes exactly the entries that slot accepts, and fails InvalidEntry exactly for an entry of the wrong kind |
| SnackVendingMachine.InsertMoney | src/core/SnackVendingMachine.java:229-234 | succeeds exactly for an entry the slot accepts; a refused entry leaves the machine unchanged; an accepted one adds its worth to the balance and one unit to the ledger, a card included, and nothing else changes |
| SnackVendingMachine.IsSelectedItemFullyPaid | src/core/SnackVendingMachine.java:343-349 | true exactly when the balance covers the selected item's price |
| SnackVendingMachine.DispenseSelectedSnackItem | src/core/SnackVendingMachine.java:240-262 | every failure leaves the machine unchanged; with an item selected it succeeds exactly when the item is paid for, change for the overpayment can be made, and the slot is non-empty; one unit leaves the slot and the price joins the sales total |
| SnackVendingMachine.CalculateAndDispenseChange | src/core/SnackVendingMachine.java:273-281 | the change is valid and worth exactly the overpayment, each ledger count drops by its entry, and the balance and selection are cleared |
| SnackVendingMachine.Refund | src/core/SnackVendingMachine.java:313-321 | the state becomes refunding; failure exactly when a positive balance cannot be changed, and then nothing else moves; success hands back valid change worth the balance, deducts it, and clears balance and selection |
| SnackVendingMachine.CancelRequestAndRefundCustomer | src/core/SnackVendingMachine.java:236-238 | cancelling ends in the refunding state and hands back the whole balance, or keeps balance and ledger when it cannot |
| SnackVendingMachine.DispenseSelectedItemAndCustomerChange | src/core/SnackVendingMachine.java:291-303 | success clears balance and selection and ends dispensing when the item comes out, refunding when it does not; unmakeable change that cannot be refunded either leaves only the state at refunding; every other failure leaves the machine unchanged |
| SnackVendingMachine.ClearAllSnackSlots | src/core/SnackVendingMachine.java:334-341 | every slot loses its item and quantity and keeps its capacity |
| SnackVendingMachine.ResetToInitialState | src/core/SnackVendingMachine.java:324-332 | every slot is emptied, every ledger count is 0, balance, sales and selection are cleared; state and flags are kept |
| MachineProperties.DispenseNeedsAStockedSelection | src/core/SnackVendingMachine.java:249-252 | with no selection, or an unstocked slot selected, a dispense fails and changes nothing |
| MachineProperties.DispenseRejectsUnderpayment | src/core/SnackVendingMachine.java:252-253 | a balance below the price fails ItemNotFullyPaid with balance, ledger, slots and sales unchanged |
| MachineProperties.DispenseSucceeds | src/core/SnackVendingMachine.java:291-299 | a successful dispense hands out the item and change worth balance minus price; the slot loses one unit, sales gain the price, the ledger loses the change; balance 0, no selection, state dispensing |
| MachineProperties.ExactPaymentGivesNoChange | src/core/SnackVendingMachine.java:273-281 | paying exactly the price gives the item and an empty change |
| MachineProperties.DispenseFallsBackToRefund | src/core/SnackVendingMachine.java:300-301 | unmakeable change turns the purchase into a refund of the whole balance; no item, slot and sales unchanged, state refunding |
| MachineProperties.RefundConservesMoney | src/core/SnackVendingMachine.java:313-321 | a refund takes from the ledger exactly the worth it hands back, which is the balance |
| MachineProperties.RefundOfNothingIsEmpty | src/core/SnackVendingMachine.java:313-321 | with no balance a refund hands back the empty map and keeps the ledger |
| MachineProperties.RefundTwiceReturnsNothing | src/core/SnackVendingMachine.java:313-321 | a second refund right after a successful one hands back nothing and changes nothing |
| MachineProperties.FlagsPreserveValid | src/core/SnackVendingMachine.java:88-95 | switching on or off and confirming keep the machine invariant |
| MachineProperties.ProcessRequestPreservesValid | src/core/SnackVendingMachine.java:201-217 | selecting a slot keeps the machine invariant |
| MachineProperties.RefundPreservesValid | src/core/SnackVendingMachine.java:313-321 | a refund keeps the machine invariant in both outcomes |
| MachineProperties.DispenseSnackPreservesValid | src/core/SnackVendingMachine.java:249-262 | taking the item out of its slot keeps the machine invariant |
| MachineProperties.ChangePreservesValid | src/core/SnackVendingMachine.java:273-281 | handing out the change for the overpayment keeps the machine invariant |
| MachineProperties.DispensedItemPreservesValid | src/core/SnackVendingMachine.java:292-299 | a dispense that hands out the item keeps the machine invariant |
| MachineProperties.DispensePreservesValid | src/core/SnackVendingMachine.java:291-303 | a dispense keeps the machine invariant in every outcome |
| MachineProperties.ResetPreservesValid | src/core/SnackVendingMachine.java:324-341 | a reset keeps the machine invariant |
| MachineProperties.ResetIsIdempotent | src/core/SnackVendingMachine.java:324-341 | resetting twice is the same as resetting once |
| Scenarios.SelectingAnEmptySlotIsSoldOut | src/test/IntegrationTests.java:46-55 | a confirmed selection of a slot with quantity 0 fails sold out |
| Scenarios.CoinsBelowThePriceAreRejected | src/test/IntegrationTests.java:57-70 | 10 + 25 + 50 cents for 300-cent peanuts fail ItemNotFullyPaid |
| Scenarios.CardBelowThePriceIsRejected | src/test/IntegrationTests.java:72-82 | a one-dollar card for 300-cent peanuts fails ItemNotFullyPaid |
| Scenarios.CancelRefundsTheBalance | src/test/IntegrationTests.java:84-98 | cancelling after 85 cents into an empty ledger hands back change worth 85 cents, and the state is refunding |
| Scenarios.UnproducibleChangeBecomesARefund | src/test/IntegrationTests.java:100-126 | with a $20 bill for peanuts and the test's ledger, no item comes out, the $20 comes back, and the state is refunding |
| Scenarios.ExactPaymentDispensesWithoutChange | src/test/IntegrationTests.java:128-156 | 350 cents in coins buy the turkey sandwich with no change, and the sales total becomes its price |
| Scenarios.OverpaymentDispensesWithChange | src/test/IntegrationTests.java:158-191 | 5010 cents for the sandwich give the sandwich and change worth 4660 cents, and the sales total gains its price |
| Scenarios.ChangeFor4660 | src/test/IntegrationTests.java:164-189 | the change for 4660 cents, from a ledger holding exactly two $20 bills, at least six dollar coins, at least two quarters, a ten-cent coin and no 50-cent coin, is two $20 bills, six dollar coins, two quarters and a ten-cent coin |
| Scenarios.ChangeFor4660WithAHalfDollar | src/test/IntegrationTests.java:164-189 | from a ledger with two $20 bills, at least six dollar coins, a 50-cent coin and a ten-cent coin, the change for 4660 cents is two $20 bills, six dollar coins, a 50-cent coin and a ten-cent coin |
| Scenarios.StuckOnlyWhereTheRunGoes | src/components/ChangeInventory.java:68-85 | with one 50-, 25- and 10-cent coin, change for 70 cents fails; the run is stuck at 50 + 10 cents, and not at 25 + 10 cents, which it never passes through |
| Scenarios.GreedyDoesNotBacktrack | src/components/ChangeInventory.java:68-85 | with a quarter and three ten-cent coins, change for 30 cents fails although the three ten-cent coins would make it: the scan never backtracks |

## Left out

- Console output: the print methods and the `DisplayScreen` calls, including the display clear in reset. Apart from text they only matter where they dereference a missing item: that case of `processRequestAndReturnSelectedSnackItem` is modelled as the error `NoItemInSlot`.
- The keypad and its buttons, except confirm, which is modelled as `SnackVendingMachine.Confirm`. Cancel and reset are modelled directly as machine operations.
- Exception message strings and the helper that builds them. Errors are plain constructors.
- The Java sources of `Coin`, `Note`, `Card`, `SnackItem` and `MoneySlot` are not available. The model defines its own `Payable`, `SnackItem` and `MoneySlot`: worths come from the constant names and prices from the test comments. The card in the tests is taken to be worth one dollar. A card's worth is otherwise a free parameter.
- Getters and setters, including the unguarded `setQuantity`, `setAccumulatedMoney` and `setSalesTotal` the tests use to force state, and the row and column counts. The scenarios build their machines directly instead.
- The 5 x 5 grid is a flat sequence of 25 slots, row by row. The selected slot is an index into it; Java holds a reference. The tests' shared fixture, which makes one slot object fill a whole row, is not modelled.
- Each scenario starts from a fresh machine with an empty ledger. The Java tests share one machine whose ledger, balance and slots carry over from test to test, so a Java run's results can depend on test order. For example, 50-cent coins left by the exact-payment test change the 4660-cent change to a 50-cent coin and a ten-cent coin in place of two quarters and a ten-cent coin (`Scenarios.ChangeFor4660WithAHalfDollar`).
- Payables compare by kind and worth. The equality of the Java `Card` class is not known. If it is object identity, two cards of the same worth are distinct ledger keys there and the same key here.
- ChangeInventory.Add: counts are unbounded integers; Java's 32-bit `int` wrap-around on very large counts is not modelled.
- SnackVendingMachine.ProcessRequest: requires the slot to be one of the machine's slots. The Java method accepts any slot object, and a null one throws after the confirm check.
- SnackVendingMachine.CalculateAndDispenseChange: requires the change to be producible. Java would throw here otherwise, but its only caller checks this first.
- SnackVendingMachine.DispenseSelectedItemAndCustomerChange: its own contract states the shape of each outcome. The item, the change and the ledger in each outcome are stated by the `MachineProperties` lemmas, one per outcome.
- `BigDecimal` amounts are integer cents. The coin and note worths and the two prices used are whole numbers of cents. Fractional-cent amounts are not modelled: a card's worth, the prices of the other snacks, and amounts forced through `setAccumulatedMoney` could be such amounts in Java.

## Findings

| source | as written | input that shows it | evidently intended | confidence | as-written member | corrected member |
|---|---|---|---|---|---|---|
| src/components/ChangeInventory.java:39-43 | the guard reads the count with a default of 0, but the update reads the map directly, which is null for an absent payable | `deduct(TEN_CENTS, 0)` on an empty inventory: the guard holds (0 >= 0) and unboxing null throws a NullPointerException | deducting from an absent payable behaves as from a count of 0 | medium, not executed | ChangeInventory.DeductAsWrittenFailsOnAbsentKey | ChangeInventory.Deduct |

=== FILE: card_slot.dfy ===
/** The card slot: accepts any card, whatever its worth. */
module CardSlot {
  import opened Results
  import opened Payables

  /** Every worth is supported by the card slot. */
  function IsSupportedPayableType(payable: Payable): (r: bool)
    ensures r
  {
    true
  }

  /** Only the kind is checked; a card is never refused for its worth. */
  function Validate(entry: Payable): (r: Outcome<PaymentError>)
    ensures r == Pass <==> entry.Card?
    ensures r != Fail(UnsupportedPayableType)
    ensures r.Fail? ==> r.error == InvalidEntry
  {
    if !entry.Card? then Fail(InvalidEntry)
    else Pass
  }
}

=== FILE: change_inventory.dfy ===
/**
 The change inventory: how many units of each payable the machine holds, and the
 greedy, stock-aware algorithm that assembles change from that stock.
 */
module ChangeInventory {
  import opened Results
  import opened Payables
  import CoinSlot
  import NoteSlot

  /** Units held per payable. A payable that is not a key has count 0. */
  type Ledger = map<Payable, int>

  /** Units handed out per payable, as returned by GetChange. */
  type Change = map<Payable, int>

  datatype ChangeError = InsufficientChange

  /** The fault the as-written deduction can raise (a Java NullPointerException). */
  datatype LedgerFault = NullDereference

  /** A fault raised part-way through a series of deductions, with the ledger it left behind. */
  datatype Interrupted = Interrupted(fault: LedgerFault, reached: Ledger)

  // ---------------------------------------------------------------------------
  // Counts

  /** The count of `p`, defaulting to 0 for a payable the map does not hold. */
  function Count(m: map<Payable, int>, p: Payable): (r: int)
    ensures p !in m ==> r == 0
    ensures p in m ==> r == m[p]
  {
    if p in m then m[p] else 0
  }

  /** No payable has a negative count. */
  ghost predicate NonNegative(l: Ledger)
  {
    forall p :: p in l ==> l[p] >= 0
  }

  /** Raises the count of `p` by `n`; no other count moves. */
  function Add(l: Ledger, p: Payable, n: int): (r: Ledger)
    ensures Count(r, p) == Count(l, p) + n
    ensures forall q :: q != p ==> Count(r, q) == Count(l, q)
    ensures NonNegative(l) && n >= 0 ==> NonNegative(r)
  {
    l[p := Count(l, p) + n]
  }

  /** Whether at least `n` units of `p` are held. */
  function HasSufficientCountOfPayable(l: Ledger, p: Payable, n: int): (r: bool)
    ensures r <==> Count(l, p) >= n
  {
    Count(l, p) >= n
  }

  /**
   Lowers the count of `p` by `n` when at least `n` are held, and otherwise leaves the
   ledger exactly as it was. The count it writes is never negative.
   */
  function Deduct(l: Ledger, p: Payable, n: int): (r: Ledger)
    ensures Count(l, p) >= n ==> Count(r, p) == Count(l, p) - n
    ensures Count(l, p) < n ==> r == l
    ensures forall q :: q != p ==> Count(r, q) == Count(l, q)
    ensures Count(r, p) >= 0 || r == l
    ensures NonNegative(l) ==> NonNegative(r)
  {
    if HasSufficientCountOfPayable(l, p, n) then l[p := Count(l, p) - n] else l
  }

  /**
   The deduction as the Java code writes it: the guard reads the count with a default
   of 0, but the update reads the map directly, which yields null for an absent key.
   */
  function DeductAsWritten(l: Ledger, p: Payable, n: int): (r: Result<Ledger, LedgerFault>)
    ensures r.Failure? <==> p !in l && n <= 0
    ensures r.Success? ==> r.value == Deduct(l, p, n)
  {
    if HasSufficientCountOfPayable(l, p, n) then
      if p in l then Success(l[p := l[p] - n]) else Failure(NullDereference)
    else Success(l)
  }

  /** The as-written deduction fails where its own guard reports enough stock. */
  lemma DeductAsWrittenFailsOnAbsentKey()
    ensures HasSufficientCountOfPayable(map[], TenCents, 0)
    ensures DeductAsWritten(map[], TenCents, 0) == Failure(NullDereference)
    ensures Deduct(map[], TenCents, 0) == map[TenCents := 0]
    ensures forall q :: Count(Deduct(map[], TenCents, 0), q) == Count(map[], q)
  {
  }

  /** The empty ledger: every count is 0. */
  function Clear(): (r: Ledger)
    ensures forall p :: Count(r, p) == 0
  {
    map[]
  }

  /** Sets the count of `p` to `n`; no other count moves. */
  function PutPayableWithCount(l: Ledger, p: Payable, n: int): (r: Ledger)
    ensures Count(r, p) == n
    ensures forall q :: q != p ==> Count(r, q) == Count(l, q)
  {
    l[p := n]
  }

  /** Adding and then deducting the same number of units restores every count. */
  lemma AddThenDeductRestores(l: Ledger, p: Payable, n: int)
    requires Count(l, p) >= 0
    ensures forall q :: Count(Deduct(Add(l, p, n), p, n), q) == Count(l, q)
    ensures p in l ==> Deduct(Add(l, p, n), p, n) == l
  {
    if p in l {
      assert l[p := l[p]] == l;
    }
  }

  // ---------------------------------------------------------------------------
  // Change candidates and the value of a ledger or change

  /** The payables change can be made from: every allowed note and coin, highest worth first. */
  const Candidates: seq<Payable> :=
    [FiftyDollarsBill, TwentyDollarsBill, OneDollar, FiftyCents, TwentyFiveCents, TenCents]

  /** Strictly decreasing worth along a sequence. */
  ghost predicate StrictlyDescending(ps: seq<Payable>)
  {
    forall i, j :: 0 <= i < j < |ps| ==> Worth(ps[i]) > Worth(ps[j])
  }

  /** Worth decreasing between neighbours makes it decrease along the whole sequence. */
  lemma {:induction false} NeighboursDescending(ps: seq<Payable>)
    requires forall i :: 0 <= i < |ps| - 1 ==> Worth(ps[i]) > Worth(ps[i + 1])
    ensures StrictlyDescending(ps)
  {
    if |ps| > 1 {
      NeighboursDescending(ps[1..]);
      forall i, j | 0 <= i < j < |ps| ensures Worth(ps[i]) > Worth(ps[j]) {
        if i > 0 {
          assert ps[i] == ps[1..][i - 1] && ps[j] == ps[1..][j - 1];
        } else if j > 1 {
          assert ps[1] == ps[1..][0] && ps[j] == ps[1..][j - 1];
        }
      }
    }
  }

  /** No payable occurs twice. */
  ghost predicate Distinct(ps: seq<Payable>)
  {
    forall i, j :: 0 <= i < j < |ps| ==> ps[i] != ps[j]
  }

  /**
   The candidates are sorted by strictly decreasing worth, hence distinct; each is a
   coin or note worth at least 10 cents, never a card and never the $100 bill.
   */
  lemma CandidatesShape()
    ensures StrictlyDescending(Candidates)
    ensures Distinct(Candidates)
    ensures forall q :: q in Candidates ==> !q.Card? && q != HundredDollarsBill && Worth(q) >= 10
  {
    NeighboursDescending(Candidates);
    forall q | q in Candidates ensures !q.Card? && q != HundredDollarsBill && Worth(q) >= 10 {
      var i :| 0 <= i < |Candidates| && Candidates[i] == q;
    }
  }

  /** A single candidate is a coin or note worth at least 10 cents, never a card or the $100 bill. */
  lemma CandidateIsChangeMoney(p: Payable)
    requires p in Candidates
    ensures !p.Card? && p != HundredDollarsBill && Worth(p) >= 10
  {
  }

  /**
   The candidate list holds the allow-listed notes and coins, as many as there are:
   with CandidatesShape (distinct, strictly decreasing worth) it is their sorted list,
   and as the worths are distinct no other order of them is sorted.
   */
  lemma CandidatesAreSortedAllowList()
    ensures |Candidates| == |NoteSlot.AllowedNotes + CoinSlot.AllowedCoins|
    ensures forall q :: q in Candidates <==> q in NoteSlot.AllowedNotes + CoinSlot.AllowedCoins
  {
    CandidatesShape();
    var allowed := NoteSlot.AllowedNotes + CoinSlot.AllowedCoins;
    assert allowed == [TwentyDollarsBill, FiftyDollarsBill, TenCents, TwentyFiveCents, FiftyCents, OneDollar];
  }

  /**
   The worth, in cents, of the candidate payables a ledger or a change holds: the sum
   of worth times count over the six candidates.
   */
  function Value(c: map<Payable, int>): int
  {
    5000 * Count(c, FiftyDollarsBill)
    + 2000 * Count(c, TwentyDollarsBill)
    + 100 * Count(c, OneDollar)
    + 50 * Count(c, FiftyCents)
    + 25 * Count(c, TwentyFiveCents)
    + 10 * Count(c, TenCents)
  }

  /** One more unit of a candidate adds exactly its worth to the value. */
  lemma ValueOfOneMore(c: Change, p: Payable)
    requires p in Candidates
    ensures Value(c[p := Count(c, p) + 1]) == Value(c) + Worth(p)
  {
  }

  // ---------------------------------------------------------------------------
  // The greedy change algorithm

  /**
   A change that could be handed out from `l`: only candidate payables, each at least
   once and never more often than the ledger holds it.
   */
  ghost predicate ValidChange(l: Ledger, c: Change)
  {
    forall p :: p in c ==> p in Candidates && 1 <= c[p] <= Count(l, p)
  }

  /** Taking one more unit of a usable candidate keeps an allocation valid. */
  lemma OneMoreStaysValid(l: Ledger, alloc: Change, remainder: int, p: Payable)
    requires ValidChange(l, alloc)
    requires p in Candidates && Usable(l, alloc, remainder, p)
    ensures ValidChange(l, alloc[p := Count(alloc, p) + 1])
  {
  }

  /**
   Whether one more unit of `p` may be taken while `remainder` is still owed and
   `alloc` has already been taken from `l`.
   */
  predicate Usable(l: Ledger, alloc: Change, remainder: int, p: Payable)
  {
    Worth(p) <= remainder && Count(l, p) - Count(alloc, p) > 0
  }

  /**
   One step of the greedy algorithm: the inner loop over the candidate list, unrolled
   in its order (highest worth first), stopping at the first usable candidate; None
   when the loop runs through without finding one.
   */
  function Pick(l: Ledger, alloc: Change, remainder: int): (r: Option<Payable>)
    ensures r.Some? ==> r.value in Candidates && Usable(l, alloc, remainder, r.value)
  {
    if Usable(l, alloc, remainder, FiftyDollarsBill) then Some(FiftyDollarsBill)
    else if Usable(l, alloc, remainder, TwentyDollarsBill) then Some(TwentyDollarsBill)
    else if Usable(l, alloc, remainder, OneDollar) then Some(OneDollar)
    else if Usable(l, alloc, remainder, FiftyCents) then Some(FiftyCents)
    else if Usable(l, alloc, remainder, TwentyFiveCents) then Some(TwentyFiveCents)
    else if Usable(l, alloc, remainder, TenCents) then Some(TenCents)
    else None
  }

  /**
   The pick is what a scan of the candidate list finds: the usable candidate at the
   lowest index, every earlier one being unusable; None exactly when no entry is usable.
   */
  lemma PickIsFirstUsable(l: Ledger, alloc: Change, remainder: int)
    ensures Pick(l, alloc, remainder).None? <==>
              forall i :: 0 <= i < |Candidates| ==> !Usable(l, alloc, remainder, Candidates[i])
    ensures Pick(l, alloc, remainder).Some? ==>
              exists k :: 0 <= k < |Candidates| && Candidates[k] == Pick(l, alloc, remainder).value &&
                forall j :: 0 <= j < k ==> !Usable(l, alloc, remainder, Candidates[j])
  {
    var pick := Pick(l, alloc, remainder);
    if pick.Some? {
      var k :| 0 <= k < |Candidates| && Candidates[k] == pick.value;
      assert forall j :: 0 <= j < k ==> !Usable(l, alloc, remainder, Candidates[j]);
    }
  }

  /** A scan that reaches a usable candidate at index `k`, past only unusable ones, picks it. */
  lemma PickAt(l: Ledger, alloc: Change, remainder: int, k: nat)
    requires k < |Candidates| && Usable(l, alloc, remainder, Candidates[k])
    requires forall j :: 0 <= j < k ==> !Usable(l, alloc, remainder, Candidates[j])
    ensures Pick(l, alloc, remainder) == Some(Candidates[k])
  {
    if k > 0 { assert !Usable(l, alloc, remainder, Candidates[0]); }
    if k > 1 { assert !Usable(l, alloc, remainder, Candidates[1]); }
    if k > 2 { assert !Usable(l, alloc, remainder, Candidates[2]); }
    if k > 3 { assert !Usable(l, alloc, remainder, Candidates[3]); }
    if k > 4 { assert !Usable(l, alloc, remainder, Candidates[4]); }
  }

  /**
   The pick is the usable candidate of highest worth, and there is none exactly when
   no candidate is usable.
   */
  lemma PickIsHighestUsable(l: Ledger, alloc: Change, remainder: int)
    ensures Pick(l, alloc, remainder).None? <==> forall q :: q in Candidates ==> !Usable(l, alloc, remainder, q)
    ensures Pick(l, alloc, remainder).Some? ==>
              forall q :: q in Candidates && Usable(l, alloc, remainder, q) ==> Worth(q) <= Worth(Pick(l, alloc, remainder).value)
  {
  }

  /**
   Repeatedly takes one unit of the picked candidate until nothing is owed, failing
   when a scan finds no usable candidate.
   */
  function GreedyFrom(l: Ledger, alloc: Change, remainder: int): (r: Result<Change, ChangeError>)
    ensures remainder <= 0 ==> r == Success(alloc)
    ensures r.Failure? ==> remainder > 0
    decreases remainder
  {
    if remainder <= 0 then Success(alloc)
    else
      match Pick(l, alloc, remainder)
      case None => Failure(InsufficientChange)
      case Some(p) =>
        CandidateIsChangeMoney(p);
        GreedyFrom(l, alloc[p := Count(alloc, p) + 1], remainder - Worth(p))
  }

  /** One greedy step: with something owed and a candidate picked, take one unit of it and go on. */
  lemma GreedyFromStep(l: Ledger, alloc: Change, remainder: int, p: Payable)
    requires remainder > 0 && Pick(l, alloc, remainder) == Some(p)
    ensures GreedyFrom(l, alloc, remainder) == GreedyFrom(l, alloc[p := Count(alloc, p) + 1], remainder - Worth(p))
  {
  }

  /** A successful greedy run extends a valid allocation to a valid one. */
  lemma {:induction false} GreedyFromIsValid(l: Ledger, alloc: Change, remainder: int)
    requires ValidChange(l, alloc)
    ensures GreedyFrom(l, alloc, remainder).Success? ==> ValidChange(l, GreedyFrom(l, alloc, remainder).value)
    decreases remainder
  {
    var pick := Pick(l, alloc, remainder);
    if remainder > 0 && pick.Some? {
      var p := pick.value;
      OneMoreStaysValid(l, alloc, remainder, p);
      GreedyFromStep(l, alloc, remainder, p);
      GreedyFromIsValid(l, alloc[p := Count(alloc, p) + 1], remainder - Worth(p));
    }
  }

  /**
   A successful greedy run adds exactly the remainder that was owed to the value of
   the allocation.
   */
  lemma {:induction false} GreedyFromIsExact(l: Ledger, alloc: Change, remainder: int)
    requires remainder >= 0
    ensures GreedyFrom(l, alloc, remainder).Success? ==>
              Value(GreedyFrom(l, alloc, remainder).value) == Value(alloc) + remainder
    decreases remainder
  {
    var pick := Pick(l, alloc, remainder);
    if remainder > 0 && pick.Some? {
      var p := pick.value;
      ValueOfOneMore(alloc, p);
      GreedyFromStep(l, alloc, remainder, p);
      GreedyFromIsExact(l, alloc[p := Count(alloc, p) + 1], remainder - Worth(p));
    }
  }

  /**
   The change for `amount`: nothing for an amount of zero or less; otherwise a greedy
   allocation from the stock, or InsufficientChange. The ledger is only read.
   */
  function GetChange(l: Ledger, amount: int): (r: Result<Change, ChangeError>)
    ensures amount <= 0 ==> r == Success(map[])
    ensures r.Success? ==> ValidChange(l, r.value)
    ensures r.Success? && amount > 0 ==> Value(r.value) == amount
    ensures r.Success? ==> forall p :: p in r.value ==> r.value[p] <= Count(l, p)
    ensures r.Success? ==> forall p :: p in r.value ==> !p.Card? && p != HundredDollarsBill
    ensures r.Failure? ==> amount > 0
  {
    if amount > 0 then
      GreedyFromIsValid(l, map[], amount);
      GreedyFromIsExact(l, map[], amount);
      CandidatesShape();
      GreedyFrom(l, map[], amount)
    else Success(map[])
  }

  /**
   Whether the greedy run from `alloc`, owing `remainder`, passes through `target`:
   `target` is the current allocation, or one greedy step leads to a run that passes
   through it.
   */
  ghost predicate Reaches(l: Ledger, alloc: Change, remainder: int, target: Change)
    decreases remainder
  {
    || target == alloc
    || (&& remainder > 0
        && Pick(l, alloc, remainder).Some?
        && var p := Pick(l, alloc, remainder).value;
           CandidateIsChangeMoney(p);
           Reaches(l, alloc[p := Count(alloc, p) + 1], remainder - Worth(p), target))
  }

  /** A run that takes one greedy step and then passes through `target` passes through it. */
  lemma ReachesStep(l: Ledger, alloc: Change, remainder: int, p: Payable, target: Change)
    requires remainder > 0 && Pick(l, alloc, remainder) == Some(p)
    requires Reaches(l, alloc[p := Count(alloc, p) + 1], remainder - Worth(p), target)
    ensures Reaches(l, alloc, remainder, target)
  {
  }

  /** A run that passes through an allocation other than its start takes a greedy step first. */
  lemma ReachesUnfold(l: Ledger, alloc: Change, remainder: int, target: Change)
    requires Reaches(l, alloc, remainder, target) && target != alloc
    ensures remainder > 0 && Pick(l, alloc, remainder).Some?
    ensures var p := Pick(l, alloc, remainder).value;
            Reaches(l, alloc[p := Count(alloc, p) + 1], remainder - Worth(p), target)
  {
  }

  /**
   A failing greedy run ends in a stuck state it passes through: a valid allocation
   that still owes a positive amount and for which the pick finds nothing.
   */
  lemma {:induction false} GreedyFromFailsOnlyWhenStuck(l: Ledger, alloc: Change, remainder: int)
    returns (stuck: Change)
    requires remainder >= 0
    requires ValidChange(l, alloc)
    requires GreedyFrom(l, alloc, remainder).Failure?
    ensures ValidChange(l, stuck)
    ensures Value(alloc) <= Value(stuck) < Value(alloc) + remainder
    ensures Reaches(l, alloc, remainder, stuck)
    ensures Pick(l, stuck, Value(alloc) + remainder - Value(stuck)).None?
    decreases remainder
  {
    var pick := Pick(l, alloc, remainder);
    if pick.None? {
      stuck := alloc;
    } else {
      var p := pick.value;
      var next := alloc[p := Count(alloc, p) + 1];
      OneMoreStaysValid(l, alloc, remainder, p);
      ValueOfOneMore(alloc, p);
      GreedyFromStep(l, alloc, remainder, p);
      stuck := GreedyFromFailsOnlyWhenStuck(l, next, remainder - Worth(p));
      assert Value(next) + (remainder - Worth(p)) == Value(alloc) + remainder;
      ReachesStep(l, alloc, remainder, p, stuck);
    }
  }

  /** A run owing a positive amount with no usable candidate fails at once. */
  lemma StuckHereFails(l: Ledger, alloc: Change, remainder: int)
    requires remainder > 0
    requires forall q :: q in Candidates ==> !Usable(l, alloc, remainder, q)
    ensures GreedyFrom(l, alloc, remainder).Failure?
  {
    PickIsHighestUsable(l, alloc, remainder);
  }

  /**
   A run that passes through an allocation still owing a positive amount, with no
   candidate usable for it, fails.
   */
  lemma {:induction false} GreedyFromFailsWhenStuck(l: Ledger, alloc: Change, remainder: int, stuck: Change)
    requires Reaches(l, alloc, remainder, stuck)
    requires Value(stuck) < Value(alloc) + remainder
    requires forall q :: q in Candidates ==> !Usable(l, stuck, Value(alloc) + remainder - Value(stuck), q)
    ensures GreedyFrom(l, alloc, remainder).Failure?
    decreases remainder
  {
    if stuck == alloc {
      StuckHereFails(l, alloc, remainder);
    } else {
      ReachesUnfold(l, alloc, remainder, stuck);
      var p := Pick(l, alloc, remainder).value;
      var next := alloc[p := Count(alloc, p) + 1];
      ValueOfOneMore(alloc, p);
      assert Value(next) + (remainder - Worth(p)) == Value(alloc) + remainder;
      GreedyFromFailsWhenStuck(l, next, remainder - Worth(p), stuck);
      GreedyFromStep(l, alloc, remainder, p);
    }
  }

  /**
   The greedy run for `amount` is stuck at `stuck`: it passes through this valid
   allocation, which owes a positive amount, and no candidate is usable for what is
   still owed.
   */
  ghost predicate StuckAt(l: Ledger, amount: int, stuck: Change)
  {
    && ValidChange(l, stuck)
    && 0 <= Value(stuck) < amount
    && Reaches(l, map[], amount, stuck)
    && forall q :: q in Candidates ==> !Usable(l, stuck, amount - Value(stuck), q)
  }

  /** GetChange fails only when its run reaches an allocation that owes something and no candidate is usable. */
  lemma GetChangeFailsOnlyWhenStuck(l: Ledger, amount: int) returns (stuck: Change)
    requires GetChange(l, amount).Failure?
    ensures ValidChange(l, stuck)
    ensures 0 <= Value(stuck) < amount
    ensures Reaches(l, map[], amount, stuck)
    ensures forall q :: q in Candidates ==> !Usable(l, stuck, amount - Value(stuck), q)
  {
    stuck := GreedyFromFailsOnlyWhenStuck(l, map[], amount);
    PickIsHighestUsable(l, stuck, amount - Value(stuck));
  }

  /** A run that reaches an allocation owing a positive amount with no usable candidate makes GetChange fail. */
  lemma StuckRunFails(l: Ledger, amount: int, stuck: Change)
    requires Reaches(l, map[], amount, stuck)
    requires Value(stuck) < amount
    requires forall q :: q in Candidates ==> !Usable(l, stuck, amount - Value(stuck), q)
    ensures GetChange(l, amount).Failure?
  {
    GreedyFromFailsWhenStuck(l, map[], amount, stuck);
  }

  /** GetChange fails exactly when its greedy run gets stuck: a scan finds nothing while something is owed. */
  lemma GetChangeFailsIffStuck(l: Ledger, amount: int)
    ensures GetChange(l, amount).Failure? <==> exists stuck :: StuckAt(l, amount, stuck)
  {
    if GetChange(l, amount).Failure? {
      var stuck := GetChangeFailsOnlyWhenStuck(l, amount);
      assert StuckAt(l, amount, stuck);
    } else if exists stuck :: StuckAt(l, amount, stuck) {
      var stuck :| StuckAt(l, amount, stuck);
      StuckRunFails(l, amount, stuck);
    }
  }

  /**
   The change algorithm as a loop: while something is owed, scan the candidates in
   order and take one unit of the first usable one, failing when the scan finds none.
   It computes exactly GetChange.
   */
  method ComputeChange(l: Ledger, amount: int) returns (r: Result<Change, ChangeError>)
    ensures r == GetChange(l, amount)
  {
    var changes: Change := map[];
    if amount > 0 {
      var balance := amount;
      while balance > 0
        invariant GreedyFrom(l, changes, balance) == GreedyFrom(l, map[], amount)
        decreases balance
      {
        var found := false;
        var i := 0;
        while i < |Candidates|
          invariant 0 <= i <= |Candidates|
          invariant forall j :: 0 <= j < i ==> !Usable(l, changes, balance, Candidates[j])
        {
          var p := Candidates[i];
          if Worth(p) <= balance && Count(l, p) - Count(changes, p) > 0 {
            PickAt(l, changes, balance, i);
            GreedyFromStep(l, changes, balance, p);
            CandidateIsChangeMoney(p);
            found := true;
            balance := balance - Worth(p);
            changes := changes[p := Count(changes, p) + 1];
            break;
          }
          i := i + 1;
        }
        if !found {
          PickIsFirstUsable(l, changes, balance);
          return Failure(InsufficientChange);
        }
      }
    }
    return Success(changes);
  }

  /** The units of `p` that can be handed out: its count, or none when the count is negative. */
  function Stock(l: Ledger, p: Payable): (n: nat)
    ensures Count(l, p) >= 0 ==> n == Count(l, p)
  {
    if Count(l, p) > 0 then Count(l, p) else 0
  }

  /**
   The worth of the candidate stock of `l` worth at most `bound` each: the most change
   for `bound` that any allocation from `l` can hold.
   */
  function StockUpTo(l: Ledger, bound: int): int
  {
    (if 5000 <= bound then 5000 * Stock(l, FiftyDollarsBill) else 0)
    + (if 2000 <= bound then 2000 * Stock(l, TwentyDollarsBill) else 0)
    + (if 100 <= bound then 100 * Stock(l, OneDollar) else 0)
    + (if 50 <= bound then 50 * Stock(l, FiftyCents) else 0)
    + (if 25 <= bound then 25 * Stock(l, TwentyFiveCents) else 0)
    + (if 10 <= bound then 10 * Stock(l, TenCents) else 0)
  }

  /** A greedy run never takes a payable worth more than the remainder it starts from. */
  lemma {:induction false} GreedyFromStaysBelow(l: Ledger, alloc: Change, remainder: int, bound: int)
    requires remainder <= bound
    requires forall q :: q in alloc ==> Worth(q) <= bound
    ensures GreedyFrom(l, alloc, remainder).Success? ==>
              forall q :: q in GreedyFrom(l, alloc, remainder).value ==> Worth(q) <= bound
    decreases remainder
  {
    var pick := Pick(l, alloc, remainder);
    if remainder > 0 && pick.Some? {
      var p := pick.value;
      GreedyFromStep(l, alloc, remainder, p);
      GreedyFromStaysBelow(l, alloc[p := Count(alloc, p) + 1], remainder - Worth(p), bound);
    }
  }

  /**
   Change for a positive amount can only be made when the stock worth at most that
   amount each adds up to the amount: otherwise GetChange fails.
   */
  lemma GetChangeNeedsEnoughSmallStock(l: Ledger, amount: int)
    requires amount > 0 && StockUpTo(l, amount) < amount
    ensures GetChange(l, amount).Failure?
  {
    GreedyFromStaysBelow(l, map[], amount, amount);
    if GetChange(l, amount).Success? {
      var c := GetChange(l, amount).value;
      assert forall q :: q in Candidates && Worth(q) > amount ==> Count(c, q) == 0;
      assert forall q :: q in Candidates ==> Count(c, q) <= Stock(l, q);
      assert false;
    }
  }

  /** Whether GetChange succeeds for `amount`; the ledger is only read. */
  function CanProduceChangeForAmount(l: Ledger, amount: int): (r: bool)
    ensures r <==> GetChange(l, amount).Success?
    ensures amount <= 0 ==> r
  {
    GetChange(l, amount).Success?
  }

  // ---------------------------------------------------------------------------
  // Applying a change to the ledger

  /**
   The ledger after deducting every entry of `c`, each by Deduct: a payable outside
   `c` keeps its count, and a valid change comes off in full, entry by entry.
   */
  function ApplyChange(l: Ledger, c: Change): (r: Ledger)
    ensures forall p :: p !in c ==> Count(r, p) == Count(l, p)
    ensures ValidChange(l, c) ==> forall p :: Count(r, p) == Count(l, p) - Count(c, p)
  {
    map p | p in l.Keys + c.Keys ::
      if p in c && Count(l, p) >= c[p] then Count(l, p) - c[p] else Count(l, p)
  }

  /**
   The count of `p` once every key of `c` outside `todo` has been deducted: lowered by
   its change entry when that key is done and the stock covers it, as it was otherwise.
   */
  ghost function PartlyApplied(l: Ledger, c: Change, todo: set<Payable>, p: Payable): int
  {
    if p in c && p !in todo && Count(l, p) >= c[p] then Count(l, p) - c[p] else Count(l, p)
  }

  /** Deducting one more pending key of `c` moves that key, and only it, to done. */
  lemma DeductPending(l: Ledger, c: Change, todo: set<Payable>, r: Ledger, p: Payable)
    requires p in todo && todo <= c.Keys
    requires forall q :: Count(r, q) == PartlyApplied(l, c, todo, q)
    ensures forall q :: Count(Deduct(r, p, c[p]), q) == PartlyApplied(l, c, todo - {p}, q)
  {
    assert Count(r, p) == Count(l, p);
  }

  /**
   Deducts every entry of `c` from `l`, one key at a time in no particular order;
   deductions of distinct keys do not interfere, so the order does not matter.
   */
  method ReflectInventoryDeductionsForChange(l: Ledger, c: Change) returns (r: Ledger)
    ensures forall p :: Count(r, p) == (if p in c && Count(l, p) >= c[p] then Count(l, p) - c[p] else Count(l, p))
    ensures forall p :: Count(r, p) == Count(ApplyChange(l, c), p)
  {
    r := l;
    var todo := c.Keys;
    while todo != {}
      invariant todo <= c.Keys
      invariant forall p :: Count(r, p) == PartlyApplied(l, c, todo, p)
      decreases |todo|
    {
      var p :| p in todo;
      DeductPending(l, c, todo, r, p);
      r := Deduct(r, p, c[p]);
      todo := todo - {p};
    }
    assert forall p :: PartlyApplied(l, c, {}, p) == Count(ApplyChange(l, c), p);
  }

  /**
   Part-way through, each count is either untouched or as ApplyChange leaves it; with
   nothing left to do, every count is as ApplyChange leaves it.
   */
  lemma PartlyAppliedBetween(l: Ledger, c: Change, todo: set<Payable>)
    ensures forall q :: PartlyApplied(l, c, todo, q) == Count(l, q) ||
                        PartlyApplied(l, c, todo, q) == Count(ApplyChange(l, c), q)
    ensures todo == {} ==> forall q :: PartlyApplied(l, c, todo, q) == Count(ApplyChange(l, c), q)
  {
  }

  /**
   The loop as the Java code writes it, on the as-written deduction: it fails exactly
   when the change holds, with an entry of 0 or less, a payable the ledger lacks, and
   otherwise leaves the counts ApplyChange gives. A fault leaves behind the keys
   deducted before it: every count is then either untouched or as ApplyChange leaves
   it, and which keys were done depends on the unspecified key order. No valid change
   makes it fail, so it never fails on what GetChange returns.
   */
  method ReflectInventoryDeductionsAsWritten(l: Ledger, c: Change) returns (r: Result<Ledger, Interrupted>)
    ensures r.Failure? <==> exists p :: p in c && p !in l && c[p] <= 0
    ensures r.Success? ==> forall p :: Count(r.value, p) == Count(ApplyChange(l, c), p)
    ensures r.Failure? ==> r.error.fault == NullDereference && r.error.reached.Keys == l.Keys
    ensures r.Failure? ==> forall p ::
              Count(r.error.reached, p) == Count(l, p) || Count(r.error.reached, p) == Count(ApplyChange(l, c), p)
    ensures ValidChange(l, c) ==> r.Success?
  {
    var cur := l;
    var todo := c.Keys;
    while todo != {}
      invariant todo <= c.Keys
      invariant cur.Keys == l.Keys
      invariant forall p :: Count(cur, p) == PartlyApplied(l, c, todo, p)
      invariant forall p :: p in c && p !in todo ==> p in l || c[p] > 0
      decreases |todo|
    {
      var p :| p in todo;
      match DeductAsWritten(cur, p, c[p]) {
        case Failure(e) =>
          PartlyAppliedBetween(l, c, todo);
          return Failure(Interrupted(e, cur));
        case Success(next) =>
          DeductPending(l, c, todo, cur, p);
          cur := next;
      }
      todo := todo - {p};
    }
    PartlyAppliedBetween(l, c, todo);
    return Success(cur);
  }

  /**
   Applying the change GetChange produced lowers each count by exactly the units
   allocated, and the ledger's value by exactly the amount.
   */
  lemma ApplyGetChange(l: Ledger, amount: int, c: Change)
    requires GetChange(l, amount) == Success(c)
    ensures forall p :: Count(ApplyChange(l, c), p) == Count(l, p) - Count(c, p)
    ensures Value(ApplyChange(l, c)) == Value(l) - (if amount > 0 then amount else 0)
    ensures NonNegative(l) ==> NonNegative(ApplyChange(l, c))
  {
    var a := ApplyChange(l, c);
    assert forall p :: Count(a, p) == Count(l, p) - Count(c, p);
  }
}

=== FILE: coin_slot.dfy ===
/** The coin slot: accepts coins of an allow-listed worth only. */
module CoinSlot {
  import opened Results
  import opened Payables

  /** The allow-list of coins, in declaration order. */
  const AllowedCoins: seq<Payable> := [TenCents, TwentyFiveCents, FiftyCents, OneDollar]

  /**
   Whether some allowed coin has the same worth as `payable`. Only the worth is
   compared, so the kind of `payable` plays no part.
   */
  function IsSupportedPayableType(payable: Payable): (r: bool)
    ensures r <==> Worth(payable) in {10, 25, 50, 100}
  {
    assert Worth(AllowedCoins[0]) == 10 && Worth(AllowedCoins[1]) == 25;
    assert Worth(AllowedCoins[2]) == 50 && Worth(AllowedCoins[3]) == 100;
    exists i :: 0 <= i < |AllowedCoins| && Worth(AllowedCoins[i]) == Worth(payable)
  }

  /**
   Two-stage check of an entry: the kind first, then the worth. Validation is a pure
   function of the entry, so it changes nothing.
   */
  function Validate(entry: Payable): (r: Outcome<PaymentError>)
    ensures r == Pass <==> entry.Coin? && Worth(entry) in {10, 25, 50, 100}
    ensures !entry.Coin? <==> r == Fail(InvalidEntry)
    ensures r == Fail(UnsupportedPayableType) <==> entry.Coin? && Worth(entry) !in {10, 25, 50, 100}
  {
    if !entry.Coin? then Fail(InvalidEntry)
    else if !IsSupportedPayableType(entry) then Fail(UnsupportedPayableType)
    else Pass
  }
}

=== FILE: machine_properties.dfy ===
/**
 Properties of the vending machine's transactions: what a dispense does in each of
 its outcomes, what a refund hands back, and the machine invariant each operation
 keeps.
 */
module MachineProperties {
  import opened Results
  import opened Payables
  import opened SnackSlots
  import opened ChangeInventory
  import opened SnackVendingMachine

  // ---------------------------------------------------------------------------
  // Dispensing

  /** The price of the selected item, for a machine that has one selected. */
  function SelectedPrice(m: Machine): (price: nat)
    requires WellFormed(m) && m.selected.Some? && m.slots[m.selected.value].item.Some?
    ensures exists item :: m.slots[m.selected.value].item == Some(item) && item.price == price
  {
    m.slots[m.selected.value].item.value.price
  }

  /** Without a selection, or with an unstocked slot selected, a dispense fails and changes nothing. */
  lemma DispenseNeedsAStockedSelection(m: Machine)
    requires WellFormed(m)
    ensures m.selected.None? ==> DispenseSelectedItemAndCustomerChange(m) == Step(m, Failure(NoSelection))
    ensures m.selected.Some? && m.slots[m.selected.value].item.None? ==>
              DispenseSelectedItemAndCustomerChange(m) == Step(m, Failure(NoItemInSlot))
  {
  }

  /** A balance below the price fails with ItemNotFullyPaid and changes nothing. */
  lemma DispenseRejectsUnderpayment(m: Machine)
    requires WellFormed(m) && m.selected.Some? && m.slots[m.selected.value].item.Some?
    requires m.balance < SelectedPrice(m)
    ensures DispenseSelectedItemAndCustomerChange(m) == Step(m, Failure(ItemNotFullyPaid))
  {
  }

  /**
   A paid-for item whose change can be made comes out of a non-empty slot: the slot
   loses one unit, the price goes to the sales total, the overpayment comes back as
   change taken from the ledger, and the machine is left with no balance, no
   selection, in the dispensing state.
   */
  lemma DispenseSucceeds(m: Machine)
    requires WellFormed(m) && m.selected.Some? && m.slots[m.selected.value].item.Some?
    requires m.balance >= SelectedPrice(m)
    requires CanProduceChangeForAmount(m.ledger, m.balance - SelectedPrice(m))
    requires m.slots[m.selected.value].quantity != 0
    ensures var r := DispenseSelectedItemAndCustomerChange(m);
            var k := m.selected.value;
            && r.outcome.Success?
            && r.outcome.value.item == m.slots[k].item
            && ValidChange(m.ledger, r.outcome.value.change)
            && Value(r.outcome.value.change) == m.balance - SelectedPrice(m)
            && (forall p :: Count(r.machine.ledger, p) == Count(m.ledger, p) - Count(r.outcome.value.change, p))
            && Value(r.machine.ledger) == Value(m.ledger) - (m.balance - SelectedPrice(m))
            && r.machine.slots == m.slots[k := m.slots[k].(quantity := m.slots[k].quantity - 1)]
            && r.machine.salesTotal == m.salesTotal + SelectedPrice(m)
            && r.machine.balance == 0 && r.machine.selected.None?
            && r.machine.state == DispensingSelectedItemAndCustomerChange
            && r.machine.functional == m.functional && r.machine.confirmed == m.confirmed
  {
    var s := DispenseSelectedSnackItem(m);
    var owed := m.balance - SelectedPrice(m);
    var change := GetChange(m.ledger, owed).value;
    ApplyGetChange(m.ledger, owed, change);
  }

  /** Paying exactly the price gives the item and no change at all. */
  lemma ExactPaymentGivesNoChange(m: Machine)
    requires WellFormed(m) && m.selected.Some? && m.slots[m.selected.value].item.Some?
    requires m.balance == SelectedPrice(m)
    requires m.slots[m.selected.value].quantity != 0
    ensures DispenseSelectedItemAndCustomerChange(m).outcome ==
              Success(Dispensed(m.slots[m.selected.value].item, map[]))
  {
  }

  /**
   A paid-for item whose change cannot be made is not handed out: the whole balance
   is refunded instead, the slot and the sales total stay as they were, and the
   machine is left refunding.
   */
  lemma DispenseFallsBackToRefund(m: Machine)
    requires WellFormed(m) && m.selected.Some? && m.slots[m.selected.value].item.Some?
    requires m.balance >= SelectedPrice(m)
    requires !CanProduceChangeForAmount(m.ledger, m.balance - SelectedPrice(m))
    ensures var r := DispenseSelectedItemAndCustomerChange(m);
            && r.machine == Refund(m).machine
            && r.machine.state == RefundingCustomerMoney
            && r.machine.slots == m.slots && r.machine.salesTotal == m.salesTotal
            && (r.outcome.Success? <==> Refund(m).outcome.Success?)
            && (r.outcome.Success? ==>
                  r.outcome.value.item.None? && Value(r.outcome.value.change) == m.balance)
            && (r.outcome.Failure? ==> r.outcome.error == InsufficientChangeInInventory)
  {
    var s := DispenseSelectedSnackItem(m);
    assert s == Step(m, Failure(InsufficientChangeInInventory));
  }

  // ---------------------------------------------------------------------------
  // Refunding

  /** A refund takes from the ledger exactly the worth it hands back. */
  lemma RefundConservesMoney(m: Machine)
    requires Refund(m).outcome.Success?
    ensures Value(Refund(m).machine.ledger) == Value(m.ledger) - Value(Refund(m).outcome.value)
    ensures Value(Refund(m).outcome.value) == (if m.balance > 0 then m.balance else 0)
  {
    ApplyGetChange(m.ledger, m.balance, Refund(m).outcome.value);
  }

  /** With nothing inserted a refund hands back nothing and keeps the ledger. */
  lemma RefundOfNothingIsEmpty(m: Machine)
    requires m.balance <= 0
    ensures Refund(m).outcome == Success(map[])
    ensures Refund(m).machine.ledger == m.ledger
  {
    assert ApplyChange(m.ledger, map[]) == m.ledger;
  }

  /** A second refund, or a second cancel, right after a successful one hands back nothing. */
  lemma RefundTwiceReturnsNothing(m: Machine)
    requires Refund(m).outcome.Success?
    ensures Refund(Refund(m).machine).outcome == Success(map[])
    ensures Refund(Refund(m).machine).machine == Refund(m).machine
  {
    RefundOfNothingIsEmpty(Refund(m).machine);
  }

  // ---------------------------------------------------------------------------
  // The machine invariant

  /** Switching the machine on or off and confirming keep the invariant. */
  lemma FlagsPreserveValid(m: Machine, functional: bool)
    requires Valid(m)
    ensures Valid(SetFunctional(m, functional))
    ensures Valid(Confirm(m))
  {
  }

  /** Selecting a slot keeps the invariant. */
  lemma ProcessRequestPreservesValid(m: Machine, slot: nat)
    requires Valid(m) && slot < |m.slots|
    ensures Valid(ProcessRequest(m, slot).machine)
  {
  }

  /** A refund keeps the invariant, whether or not its change can be made. */
  lemma RefundPreservesValid(m: Machine)
    requires Valid(m)
    ensures Valid(Refund(m).machine)
  {
    var r := Refund(m);
    if r.outcome.Success? {
      ApplyGetChange(m.ledger, m.balance, r.outcome.value);
    }
  }

  /** Taking the selected item out of its slot keeps the invariant. */
  lemma DispenseSnackPreservesValid(m: Machine)
    requires Valid(m)
    ensures Valid(DispenseSelectedSnackItem(m).machine)
  {
    var s := DispenseSelectedSnackItem(m);
    if s.outcome.Success? {
      var k := m.selected.value;
      forall i | 0 <= i < |s.machine.slots| ensures WithinCapacity(s.machine.slots[i]) {
        if i != k { assert s.machine.slots[i] == m.slots[i]; }
      }
    }
  }

  /** Handing out the change for the overpayment keeps the invariant. */
  lemma ChangePreservesValid(m: Machine)
    requires Valid(m) && m.selected.Some? && m.slots[m.selected.value].item.Some?
    requires CanProduceChangeForAmount(m.ledger, m.balance - SelectedPrice(m))
    ensures Valid(CalculateAndDispenseChange(m).0)
  {
    var c := CalculateAndDispenseChange(m);
    forall p | p in c.0.ledger ensures c.0.ledger[p] >= 0 {
      assert Count(c.0.ledger, p) == Count(m.ledger, p) - Count(c.1, p);
    }
  }

  /** A dispense that hands out the item keeps the invariant. */
  lemma DispensedItemPreservesValid(m: Machine)
    requires Valid(m) && DispenseSelectedSnackItem(m).outcome.Success?
    ensures Valid(DispenseSelectedItemAndCustomerChange(m).machine)
  {
    var s := DispenseSelectedSnackItem(m);
    DispenseSnackPreservesValid(m);
    ChangePreservesValid(s.machine);
  }

  /** A dispense keeps the invariant in every outcome. */
  lemma DispensePreservesValid(m: Machine)
    requires Valid(m)
    ensures Valid(DispenseSelectedItemAndCustomerChange(m).machine)
  {
    var s := DispenseSelectedSnackItem(m);
    if s.outcome.Success? {
      DispensedItemPreservesValid(m);
    } else if s.outcome.error == InsufficientChangeInInventory {
      RefundPreservesValid(m);
    }
  }

  /** A reset keeps the invariant. */
  lemma ResetPreservesValid(m: Machine)
    requires Valid(m)
    ensures Valid(ResetToInitialState(m))
  {
  }

  /** Resetting twice is resetting once. */
  lemma ResetIsIdempotent(m: Machine)
    ensures ResetToInitialState(ResetToInitialState(m)) == ResetToInitialState(m)
  {
    var r := ResetToInitialState(m);
    assert ClearAllSnackSlots(r.slots) == r.slots;
  }
}

=== FILE: note_slot.dfy ===
/** The note slot: accepts $20 and $50 notes only. */
module NoteSlot {
  import opened Results
  import opened Payables

  /** The allow-list of notes; the $100 bill is not on it. */
  const AllowedNotes: seq<Payable> := [TwentyDollarsBill, FiftyDollarsBill]

  /** Whether some allowed note has the same worth as `payable`, whatever its kind. */
  function IsSupportedPayableType(payable: Payable): (r: bool)
    ensures r <==> Worth(payable) in {2000, 5000}
  {
    assert Worth(AllowedNotes[0]) == 2000 && Worth(AllowedNotes[1]) == 5000;
    exists i :: 0 <= i < |AllowedNotes| && Worth(AllowedNotes[i]) == Worth(payable)
  }

  /** Two-stage check of an entry: the kind first, then the worth. */
  function Validate(entry: Payable): (r: Outcome<PaymentError>)
    ensures r == Pass <==> entry.Note? && Worth(entry) in {2000, 5000}
    ensures !entry.Note? <==> r == Fail(InvalidEntry)
    ensures r == Fail(UnsupportedPayableType) <==> entry.Note? && Worth(entry) !in {2000, 5000}
  {
    if !entry.Note? then Fail(InvalidEntry)
    else if !IsSupportedPayableType(entry) then Fail(UnsupportedPayableType)
    else Pass
  }
}

=== FILE: payables.dfy ===
/**
 Payment instruments. Coin, Note and Card are the three kinds of payable the machine
 knows; each carries its worth in US cents (the Java code keeps worth as a BigDecimal
 number of dollars, which is exact, so whole cents lose nothing).
 */
module Payables {

  /** A payable of one of the three kinds, with its worth in cents. */
  datatype Payable = Coin(cents: nat) | Note(cents: nat) | Card(cents: nat)

  /** The worth of a payable, in cents. */
  function Worth(p: Payable): nat
  {
    p.cents
  }

  // The coin and note constants, named as in the Java enums.
  const TenCents: Payable := Coin(10)
  const TwentyFiveCents: Payable := Coin(25)
  const FiftyCents: Payable := Coin(50)
  const OneDollar: Payable := Coin(100)
  const TwentyDollarsBill: Payable := Note(2000)
  const FiftyDollarsBill: Payable := Note(5000)
  const HundredDollarsBill: Payable := Note(10000)

  /** Why a money slot refused an entry. */
  datatype PaymentError =
    | InvalidEntry            // the entry is not of the slot's kind
    | UnsupportedPayableType  // right kind, but a worth the slot does not accept
}

=== FILE: results.dfy ===
/** Failure-carrying wrappers used in place of the Java exceptions and null references. */
module Results {

  /** A value that may be absent (a Java reference that may be null). */
  datatype Option<T> = None | Some(value: T)

  /** A computed value, or the error the Java code would have thrown instead. */
  datatype Result<T, E> = Success(value: T) | Failure(error: E)

  /** A check that either passes or fails with an error; it carries no value. */
  datatype Outcome<E> = Pass | Fail(error: E)
}

=== FILE: scenarios.dfy ===
/**
 The integration-test scenarios as lemmas about concrete machines. Slots are
 addressed row by row, so the keypad selection "C3" (row C, column 3) is index
 2 * 5 + 2.
 */
module Scenarios {
  import opened Results
  import opened Payables
  import opened SnackSlots
  import opened ChangeInventory
  import opened SnackVendingMachine
  import opened MachineProperties

  /** The index of the slot at a zero-based row and column. */
  function At(row: nat, column: nat): (k: nat)
    requires row < Rows && column < Columns
    ensures k < Rows * Columns
  {
    row * Columns + column
  }

  /** A fresh machine with `item` stocked `quantity` times (capacity 10) at one slot. */
  function Stocked(row: nat, column: nat, item: SnackItem, quantity: nat): (m: Machine)
    requires row < Rows && column < Columns && quantity <= 10
    ensures Valid(m) && |m.slots| == Rows * Columns
    ensures m.slots[At(row, column)] == SnackSlot(Some(item), quantity, 10)
  {
    var m := Initial();
    m.(slots := m.slots[At(row, column) := SnackSlot(Some(item), quantity, 10)])
  }

  /** Selecting an empty slot after confirming fails as sold out. */
  lemma SelectingAnEmptySlotIsSoldOut()
    ensures ProcessRequest(Confirm(Stocked(1, 0, Peanuts, 0)), At(1, 0)).outcome == Failure(SnackSoldOut)
  {
  }

  /** 85 cents in coins do not pay for 300-cent peanuts. */
  lemma CoinsBelowThePriceAreRejected()
    ensures var m := ProcessRequest(Confirm(Stocked(2, 2, Peanuts, 3)), At(2, 2)).machine;
            var s1 := InsertMoney(m, ThroughCoinSlot, TenCents);
            var s2 := InsertMoney(s1.machine, ThroughCoinSlot, TwentyFiveCents);
            var s3 := InsertMoney(s2.machine, ThroughCoinSlot, FiftyCents);
            && s1.outcome.Success? && s2.outcome.Success? && s3.outcome.Success?
            && s3.machine.balance == 85
            && DispenseSelectedItemAndCustomerChange(s3.machine) == Step(s3.machine, Failure(ItemNotFullyPaid))
  {
    var m := ProcessRequest(Confirm(Stocked(2, 2, Peanuts, 3)), At(2, 2)).machine;
    var s1 := InsertMoney(m, ThroughCoinSlot, TenCents);
    var s2 := InsertMoney(s1.machine, ThroughCoinSlot, TwentyFiveCents);
    var s3 := InsertMoney(s2.machine, ThroughCoinSlot, FiftyCents);
    assert s3.machine.slots[At(2, 2)].item == Some(Peanuts);
    DispenseRejectsUnderpayment(s3.machine);
  }

  /** A card worth one dollar does not pay for 300-cent peanuts. */
  lemma CardBelowThePriceIsRejected()
    ensures var m := ProcessRequest(Confirm(Stocked(2, 4, Peanuts, 3)), At(2, 4)).machine;
            var paid := InsertMoney(m, ThroughCardSlot, Card(100));
            && paid.outcome.Success?
            && DispenseSelectedItemAndCustomerChange(paid.machine) == Step(paid.machine, Failure(ItemNotFullyPaid))
  {
    var m := ProcessRequest(Confirm(Stocked(2, 4, Peanuts, 3)), At(2, 4)).machine;
    var paid := InsertMoney(m, ThroughCardSlot, Card(100));
    DispenseRejectsUnderpayment(paid.machine);
  }

  /** The greedy change for 85 cents from one 50, one 25 and one 10 cent coin uses all three. */
  lemma EightyFiveCentsFromThreeCoins()
    ensures GetChange(map[TenCents := 1, FiftyCents := 1, TwentyFiveCents := 1], 85) ==
              Success(map[FiftyCents := 1, TwentyFiveCents := 1, TenCents := 1])
  {
    var l := map[TenCents := 1, FiftyCents := 1, TwentyFiveCents := 1];
    var a1 := map[FiftyCents := 1];
    var a2 := map[FiftyCents := 1, TwentyFiveCents := 1];
    var a3 := map[FiftyCents := 1, TwentyFiveCents := 1, TenCents := 1];
    GreedyFromStep(l, map[], 85, FiftyCents);
    assert map[][FiftyCents := Count(map[], FiftyCents) + 1] == a1;
    GreedyFromStep(l, a1, 35, TwentyFiveCents);
    assert a1[TwentyFiveCents := Count(a1, TwentyFiveCents) + 1] == a2;
    GreedyFromStep(l, a2, 10, TenCents);
    assert a2[TenCents := Count(a2, TenCents) + 1] == a3;
  }

  /** Cancelling after inserting 85 cents into an empty ledger hands the 85 cents back. */
  lemma CancelRefundsTheBalance()
    ensures var s1 := InsertMoney(Initial(), ThroughCoinSlot, TenCents);
            var s2 := InsertMoney(s1.machine, ThroughCoinSlot, FiftyCents);
            var s3 := InsertMoney(s2.machine, ThroughCoinSlot, TwentyFiveCents);
            var r := CancelRequestAndRefundCustomer(s3.machine);
            && s1.outcome.Success? && s2.outcome.Success? && s3.outcome.Success?
            && r.outcome == Success(map[FiftyCents := 1, TwentyFiveCents := 1, TenCents := 1])
            && Value(r.outcome.value) == s3.machine.balance == 85
            && r.machine.state == RefundingCustomerMoney
  {
    var s1 := InsertMoney(Initial(), ThroughCoinSlot, TenCents);
    var s2 := InsertMoney(s1.machine, ThroughCoinSlot, FiftyCents);
    var s3 := InsertMoney(s2.machine, ThroughCoinSlot, TwentyFiveCents);
    assert s3.machine.ledger == map[TenCents := 1, FiftyCents := 1, TwentyFiveCents := 1];
    EightyFiveCentsFromThreeCoins();
  }

  /**
   With 30 cents in ten-cent coins and 25 cents in a quarter, the greedy algorithm
   takes the quarter first and then has nothing for the 5 cents left, although the
   three ten-cent coins alone would have made 30 cents: it never backtracks.
   */
  lemma GreedyDoesNotBacktrack()
    ensures GetChange(map[TwentyFiveCents := 1, TenCents := 3], 30).Failure?
    ensures ValidChange(map[TwentyFiveCents := 1, TenCents := 3], map[TenCents := 3])
    ensures Value(map[TenCents := 3]) == 30
  {
    var l := map[TwentyFiveCents := 1, TenCents := 3];
    GreedyFromStep(l, map[], 30, TwentyFiveCents);
    assert map[][TwentyFiveCents := Count(map[], TwentyFiveCents) + 1] == map[TwentyFiveCents := 1];
    assert Pick(l, map[TwentyFiveCents := 1], 5).None?;
  }

  /**
   With one 50-cent, one 25-cent and one 10-cent coin, change for 70 cents fails: the
   run takes the 50-cent and then the 10-cent coin and is stuck owing 10 cents. It is
   stuck there and nowhere else it never passes through, such as the 25-cent and
   10-cent coins, which owe 35 cents with nothing usable.
   */
  lemma StuckOnlyWhereTheRunGoes()
    ensures GetChange(map[FiftyCents := 1, TwentyFiveCents := 1, TenCents := 1], 70).Failure?
    ensures StuckAt(map[FiftyCents := 1, TwentyFiveCents := 1, TenCents := 1], 70, map[FiftyCents := 1, TenCents := 1])
    ensures !StuckAt(map[FiftyCents := 1, TwentyFiveCents := 1, TenCents := 1], 70, map[TwentyFiveCents := 1, TenCents := 1])
  {
    var l := map[FiftyCents := 1, TwentyFiveCents := 1, TenCents := 1];
    var a1 := map[][FiftyCents := Count(map[], FiftyCents) + 1];
    var a2 := a1[TenCents := Count(a1, TenCents) + 1];
    assert a1 == map[FiftyCents := 1];
    assert a2 == map[FiftyCents := 1, TenCents := 1];
    assert Pick(l, map[], 70) == Some(FiftyCents);
    assert Pick(l, a1, 20) == Some(TenCents);
    assert Pick(l, a2, 10).None?;
    assert Reaches(l, a1, 20, a2);
    assert Reaches(l, map[], 70, a2);
    assert StuckAt(l, 70, a2);
    var other := map[TwentyFiveCents := 1, TenCents := 1];
    assert !Reaches(l, a2, 10, other);
    assert !Reaches(l, a1, 20, other);
    assert !Reaches(l, map[], 70, other);
    GetChangeFailsIffStuck(l, 70);
  }

  /** The ledger of the refund scenario: three ten-cent coins, fifteen dollar coins, two $100 and two $20 bills. */
  function RefundLedger(): Ledger
  {
    Add(Add(Add(Add(Clear(), TenCents, 3), OneDollar, 15), HundredDollarsBill, 2), TwentyDollarsBill, 2)
  }

  /** Peanuts selected at C3 after confirming, on a machine holding the refund scenario's ledger. */
  function PeanutsSelected(): (m: Machine)
    ensures WellFormed(m) && m.selected == Some(At(2, 2))
    ensures m.slots[At(2, 2)] == SnackSlot(Some(Peanuts), 3, 10)
  {
    ProcessRequest(Confirm(Stocked(2, 2, Peanuts, 3).(ledger := RefundLedger())), At(2, 2)).machine
  }

  /** After a $20 bill goes in, the balance is 2000 and the ledger holds three $20 bills. */
  lemma TwentyInserted()
    ensures var paid := InsertMoney(PeanutsSelected(), ThroughNoteSlot, TwentyDollarsBill);
            && paid.outcome.Success? && paid.machine.balance == 2000
            && WellFormed(paid.machine) && paid.machine.selected == Some(At(2, 2))
            && paid.machine.slots[At(2, 2)] == SnackSlot(Some(Peanuts), 3, 10)
            && Count(paid.machine.ledger, TenCents) == 3 && Count(paid.machine.ledger, OneDollar) == 15
            && Count(paid.machine.ledger, TwentyDollarsBill) == 3
            && Count(paid.machine.ledger, FiftyDollarsBill) == 0 && Count(paid.machine.ledger, FiftyCents) == 0
            && Count(paid.machine.ledger, TwentyFiveCents) == 0
  {
    assert PeanutsSelected().ledger == RefundLedger();
    assert PeanutsSelected().balance == 0;
  }

  /** The change for 2000 cents from a ledger with a $20 bill and no $50 bill is that $20 bill. */
  lemma TwentyForTwenty(l: Ledger)
    requires Count(l, FiftyDollarsBill) <= 0 && Count(l, TwentyDollarsBill) >= 1
    ensures GetChange(l, 2000) == Success(map[TwentyDollarsBill := 1])
  {
    GreedyFromStep(l, map[], 2000, TwentyDollarsBill);
    assert map[][TwentyDollarsBill := Count(map[], TwentyDollarsBill) + 1] == map[TwentyDollarsBill := 1];
  }

  /**
   A $20 bill for 300-cent peanuts when the ledger holds three ten-cent coins, fifteen
   dollar coins, two $100 bills and two $20 bills: the 17 dollars of change cannot be
   made, so the $20 bill comes back, no peanuts come out, and the machine is refunding.
   */
  lemma UnproducibleChangeBecomesARefund()
    ensures var paid := InsertMoney(PeanutsSelected(), ThroughNoteSlot, TwentyDollarsBill);
            var r := DispenseSelectedItemAndCustomerChange(paid.machine);
            && paid.outcome.Success?
            && r.outcome == Success(Dispensed(None, map[TwentyDollarsBill := 1]))
            && Value(r.outcome.value.change) == paid.machine.balance
            && r.machine.state == RefundingCustomerMoney
  {
    var paid := InsertMoney(PeanutsSelected(), ThroughNoteSlot, TwentyDollarsBill);
    TwentyInserted();
    GetChangeNeedsEnoughSmallStock(paid.machine.ledger, 1700);
    DispenseFallsBackToRefund(paid.machine);
    TwentyForTwenty(paid.machine.ledger);
  }

  /**
   Paying 350 cents in coins for the 350-cent turkey sandwich hands out the sandwich
   with no change and puts its price into the sales total.
   */
  lemma ExactPaymentDispensesWithoutChange()
    ensures var m := ProcessRequest(Confirm(Stocked(4, 0, TurkeySandwich, 3)), At(4, 0)).machine;
            var s1 := InsertMoney(m, ThroughCoinSlot, OneDollar);
            var s2 := InsertMoney(s1.machine, ThroughCoinSlot, OneDollar);
            var s3 := InsertMoney(s2.machine, ThroughCoinSlot, FiftyCents);
            var s4 := InsertMoney(s3.machine, ThroughCoinSlot, FiftyCents);
            var s5 := InsertMoney(s4.machine, ThroughCoinSlot, FiftyCents);
            var r := DispenseSelectedItemAndCustomerChange(s5.machine);
            && r.outcome == Success(Dispensed(Some(TurkeySandwich), map[]))
            && r.machine.salesTotal == TurkeySandwich.price
  {
    var m := ProcessRequest(Confirm(Stocked(4, 0, TurkeySandwich, 3)), At(4, 0)).machine;
    var s1 := InsertMoney(m, ThroughCoinSlot, OneDollar);
    var s2 := InsertMoney(s1.machine, ThroughCoinSlot, OneDollar);
    var s3 := InsertMoney(s2.machine, ThroughCoinSlot, FiftyCents);
    var s4 := InsertMoney(s3.machine, ThroughCoinSlot, FiftyCents);
    var s5 := InsertMoney(s4.machine, ThroughCoinSlot, FiftyCents);
    assert s5.machine.slots[At(4, 0)] == SnackSlot(Some(TurkeySandwich), 3, 10);
    assert s5.machine.balance == 350;
    ExactPaymentGivesNoChange(s5.machine);
    DispenseSucceeds(s5.machine);
  }

  /** The topped-up ledger of the change scenario. */
  function ToppedUpLedger(): Ledger
  {
    PutPayableWithCount(PutPayableWithCount(PutPayableWithCount(PutPayableWithCount(PutPayableWithCount(
      Clear(), TenCents, 20), OneDollar, 20), TwentyFiveCents, 20), TwentyDollarsBill, 2), HundredDollarsBill, 1)
  }

  /** The turkey sandwich selected at E2 after confirming, on a machine holding the topped-up ledger. */
  function SandwichSelected(): (m: Machine)
    ensures WellFormed(m) && m.selected == Some(At(4, 1))
    ensures m.slots[At(4, 1)] == SnackSlot(Some(TurkeySandwich), 3, 10)
  {
    ProcessRequest(Confirm(Stocked(4, 1, TurkeySandwich, 3).(ledger := ToppedUpLedger())), At(4, 1)).machine
  }

  /** Ten cents and a $50 bill go in: the balance is 5010 and the ledger suits the 4660-cent change. */
  lemma FiftyTenInserted()
    ensures var s1 := InsertMoney(SandwichSelected(), ThroughCoinSlot, TenCents);
            var s2 := InsertMoney(s1.machine, ThroughNoteSlot, FiftyDollarsBill);
            && s1.outcome.Success? && s2.outcome.Success? && s2.machine.balance == 5010
            && WellFormed(s2.machine) && s2.machine.selected == Some(At(4, 1))
            && s2.machine.slots[At(4, 1)] == SnackSlot(Some(TurkeySandwich), 3, 10)
            && StocksFor4660(s2.machine.ledger)
  {
    assert SandwichSelected().ledger == ToppedUpLedger();
    assert SandwichSelected().balance == 0;
  }

  /**
   Ten cents and a $50 bill for the 350-cent turkey sandwich, with a topped-up ledger:
   the sandwich comes out, the change is worth the 4660-cent overpayment, and the
   price goes into the sales total.
   */
  lemma OverpaymentDispensesWithChange()
    ensures var s1 := InsertMoney(SandwichSelected(), ThroughCoinSlot, TenCents);
            var s2 := InsertMoney(s1.machine, ThroughNoteSlot, FiftyDollarsBill);
            var r := DispenseSelectedItemAndCustomerChange(s2.machine);
            && r.outcome.Success? && r.outcome.value.item == Some(TurkeySandwich)
            && Value(r.outcome.value.change) == s2.machine.balance - TurkeySandwich.price == 4660
            && r.machine.salesTotal == SandwichSelected().salesTotal + TurkeySandwich.price
  {
    var s1 := InsertMoney(SandwichSelected(), ThroughCoinSlot, TenCents);
    var s2 := InsertMoney(s1.machine, ThroughNoteSlot, FiftyDollarsBill);
    FiftyTenInserted();
    ChangeFor4660(s2.machine.ledger);
    DispenseSucceeds(s2.machine);
  }

  /** Enough notes and dollar coins for the first 4600 of 4660 cents: two $20 bills and six dollar coins. */
  predicate StocksFor4600(l: Ledger)
  {
    Count(l, TwentyDollarsBill) == 2 && Count(l, OneDollar) >= 6
  }

  /** The conditions on a ledger under which the change for 4660 cents is as the tests expect it. */
  predicate StocksFor4660(l: Ledger)
  {
    && StocksFor4600(l)
    && Count(l, FiftyCents) == 0
    && Count(l, TwentyFiveCents) >= 2 && Count(l, TenCents) >= 1
  }

  /** The first two greedy steps for 4660 cents take both $20 bills. */
  lemma TwoTwenties(l: Ledger)
    requires StocksFor4600(l)
    ensures GreedyFrom(l, map[], 4660) == GreedyFrom(l, map[TwentyDollarsBill := 2], 660)
  {
    var a0: Change := map[];
    GreedyFromStep(l, a0, 4660, TwentyDollarsBill);
    var a1 := a0[TwentyDollarsBill := 1];
    GreedyFromStep(l, a1, 2660, TwentyDollarsBill);
    assert a1[TwentyDollarsBill := 2] == map[TwentyDollarsBill := 2];
  }

  /** The next three take dollar coins. */
  lemma ThreeDollars(l: Ledger)
    requires StocksFor4600(l)
    ensures GreedyFrom(l, map[TwentyDollarsBill := 2], 660) ==
              GreedyFrom(l, map[TwentyDollarsBill := 2, OneDollar := 3], 360)
  {
    var a2 := map[TwentyDollarsBill := 2];
    GreedyFromStep(l, a2, 660, OneDollar);
    var a3 := a2[OneDollar := 1];
    GreedyFromStep(l, a3, 560, OneDollar);
    var a4 := a3[OneDollar := 2];
    GreedyFromStep(l, a4, 460, OneDollar);
    assert a4[OneDollar := 3] == map[TwentyDollarsBill := 2, OneDollar := 3];
  }

  /** Three more dollar coins. */
  lemma SixDollars(l: Ledger)
    requires StocksFor4600(l)
    ensures GreedyFrom(l, map[TwentyDollarsBill := 2, OneDollar := 3], 360) ==
              GreedyFrom(l, map[TwentyDollarsBill := 2, OneDollar := 6], 60)
  {
    var a5 := map[TwentyDollarsBill := 2, OneDollar := 3];
    GreedyFromStep(l, a5, 360, OneDollar);
    var a6 := a5[OneDollar := 4];
    GreedyFromStep(l, a6, 260, OneDollar);
    var a7 := a6[OneDollar := 5];
    GreedyFromStep(l, a7, 160, OneDollar);
    assert a7[OneDollar := 6] == map[TwentyDollarsBill := 2, OneDollar := 6];
  }

  /** Two quarters and a ten-cent coin settle the last 60 cents. */
  lemma QuartersAndADime(l: Ledger)
    requires StocksFor4660(l)
    ensures GreedyFrom(l, map[TwentyDollarsBill := 2, OneDollar := 6], 60) ==
              Success(map[TwentyDollarsBill := 2, OneDollar := 6, TwentyFiveCents := 2, TenCents := 1])
  {
    var a8 := map[TwentyDollarsBill := 2, OneDollar := 6];
    GreedyFromStep(l, a8, 60, TwentyFiveCents);
    var a9 := a8[TwentyFiveCents := 1];
    GreedyFromStep(l, a9, 35, TwentyFiveCents);
    var a10 := a9[TwentyFiveCents := 2];
    GreedyFromStep(l, a10, 10, TenCents);
    assert a10[TenCents := 1] == map[TwentyDollarsBill := 2, OneDollar := 6, TwentyFiveCents := 2, TenCents := 1];
  }

  /** With a 50-cent coin in stock, one of it and a ten-cent coin settle the last 60 cents. */
  lemma HalfDollarAndADime(l: Ledger)
    requires StocksFor4600(l) && Count(l, FiftyCents) >= 1 && Count(l, TenCents) >= 1
    ensures GreedyFrom(l, map[TwentyDollarsBill := 2, OneDollar := 6], 60) ==
              Success(map[TwentyDollarsBill := 2, OneDollar := 6, FiftyCents := 1, TenCents := 1])
  {
    var a8 := map[TwentyDollarsBill := 2, OneDollar := 6];
    GreedyFromStep(l, a8, 60, FiftyCents);
    var a9 := a8[FiftyCents := 1];
    GreedyFromStep(l, a9, 10, TenCents);
    assert a9[TenCents := 1] == map[TwentyDollarsBill := 2, OneDollar := 6, FiftyCents := 1, TenCents := 1];
  }

  /**
   4660 cents of change from a ledger that also holds a 50-cent coin, as the ledger the
   exact-payment test leaves behind does: the last 60 cents come as a 50-cent coin and
   a ten-cent coin instead of two quarters and a ten-cent coin.
   */
  lemma ChangeFor4660WithAHalfDollar(l: Ledger)
    requires StocksFor4600(l) && Count(l, FiftyCents) >= 1 && Count(l, TenCents) >= 1
    ensures GetChange(l, 4660) ==
              Success(map[TwentyDollarsBill := 2, OneDollar := 6, FiftyCents := 1, TenCents := 1])
  {
    TwoTwenties(l);
    ThreeDollars(l);
    SixDollars(l);
    HalfDollarAndADime(l);
  }

  /**
   4660 cents of change from a ledger holding two $20 bills, at least six dollar coins,
   at least two quarters and a ten-cent coin, and no 50-cent coin:
   two $20 bills, six dollar coins, two quarters and a ten-cent coin.
   */
  lemma ChangeFor4660(l: Ledger)
    requires StocksFor4660(l)
    ensures GetChange(l, 4660) ==
              Success(map[TwentyDollarsBill := 2, OneDollar := 6, TwentyFiveCents := 2, TenCents := 1])
  {
    TwoTwenties(l);
    ThreeDollars(l);
    SixDollars(l);
    QuartersAndADime(l);
  }
}

=== FILE: snack_slot.dfy ===
/**
 A snack slot: the item it holds, how many units are left, and how many it can take.
 */
module SnackSlots {
  import opened Results

  /** A snack item and its price in cents. */
  datatype SnackItem = SnackItem(name: string, price: nat)

  // The two items whose prices the integration tests state.
  const Peanuts: SnackItem := SnackItem("PEANUTS", 300)
  const TurkeySandwich: SnackItem := SnackItem("TURKEY_SANDWICH", 350)

  /** A slot; `item` is None for a slot that holds nothing (a null item in Java). */
  datatype SnackSlot = SnackSlot(item: Option<SnackItem>, quantity: int, capacity: int)

  /** A slot as the no-argument constructor leaves it. */
  const EmptySlot: SnackSlot := SnackSlot(None, 0, 0)

  datatype SlotError = FullSnackSlot | EmptySnackSlot

  /** The counter invariant: the quantity lies between zero and the capacity. */
  predicate WithinCapacity(s: SnackSlot)
  {
    0 <= s.quantity <= s.capacity
  }

  /**
   Stocks the slot with `items`. Only their number matters: the slot's own item is
   left as it is.
   */
  function AddSnackItems(s: SnackSlot, items: seq<SnackItem>): (r: Result<SnackSlot, SlotError>)
    ensures r.Failure? <==> s.quantity + |items| > s.capacity
    ensures r.Failure? ==> r.error == FullSnackSlot
    ensures r.Success? ==> r.value.quantity == s.quantity + |items|
    ensures r.Success? ==> r.value.item == s.item && r.value.capacity == s.capacity
    ensures r.Success? && WithinCapacity(s) ==> WithinCapacity(r.value)
  {
    if s.quantity + |items| > s.capacity then Failure(FullSnackSlot)
    else Success(s.(quantity := s.quantity + |items|))
  }

  /** Takes one unit out of the slot. */
  function DispenseSnackItem(s: SnackSlot): (r: Result<SnackSlot, SlotError>)
    ensures r.Failure? <==> s.quantity == 0
    ensures r.Failure? ==> r.error == EmptySnackSlot
    ensures r.Success? ==> r.value.quantity == s.quantity - 1
    ensures r.Success? ==> r.value.item == s.item && r.value.capacity == s.capacity
    ensures r.Success? && WithinCapacity(s) ==> WithinCapacity(r.value)
  {
    if s.quantity == 0 then Failure(EmptySnackSlot)
    else Success(s.(quantity := s.quantity - 1))
  }

  /** Dispensing one unit undoes stocking one unit. */
  lemma AddThenDispenseRestores(s: SnackSlot, x: SnackItem)
    requires WithinCapacity(s)
    requires s.quantity < s.capacity
    ensures AddSnackItems(s, [x]).Success?
    ensures DispenseSnackItem(AddSnackItems(s, [x]).value) == Success(s)
  {
  }
}

=== FILE: vending_machine.dfy ===
/**
 The snack vending machine: a record of the customer's balance, the sales total, the
 grid of snack slots, the change ledger, the selected slot, the confirm flag and the
 operating state, with the customer-facing operations as pure functions. An operation
 returns the machine it leaves behind together with its value or error, because the
 Java code changes fields before it may throw.
 */
module SnackVendingMachine {
  import opened Results
  import opened Payables
  import opened SnackSlots
  import opened ChangeInventory
  import CoinSlot
  import NoteSlot
  import CardSlot

  /** The operating states, in declaration order. */
  datatype MachineState =
    | OutOfService
    | IdleWaitingCustomerMoneyEntry
    | ProcessingCustomerSelection
    | DispensingSelectedItemAndCustomerChange
    | RefundingCustomerMoney

  /** The money slot an entry is inserted into. */
  datatype MoneySlot = ThroughCoinSlot | ThroughNoteSlot | ThroughCardSlot

  /** The errors a machine operation can end with, in place of the Java exceptions. */
  datatype MachineError =
    | RequestNotConfirmed                // CustomerRequestNotConfirmedException
    | SnackSoldOut                       // SnackSoldOutException
    | ItemNotFullyPaid                   // ItemNotFullyPaidException
    | InsufficientChangeInInventory      // InsufficientChangeException
    | DispenseFailed(slotError: SlotError)      // an exception from the selected slot
    | InvalidPayment(paymentError: PaymentError) // an exception from a money slot's validation
    | NoSelection                        // a NullPointerException: no slot is selected
    | NoItemInSlot                       // a NullPointerException: the selected slot holds no item

  /**
   The machine's fields. `selected` is an index into `slots` (the Java code holds a
   reference to the slot); `confirmed` is the flag the confirm button sets.
   */
  datatype Machine = Machine(
    functional: bool,
    confirmed: bool,
    salesTotal: int,
    balance: int,
    slots: seq<SnackSlot>,
    ledger: Ledger,
    state: MachineState,
    selected: Option<nat>)

  /** The machine an operation leaves behind, and its value or error. */
  datatype Step<T> = Step(machine: Machine, outcome: Result<T, MachineError>)

  /** What a dispense hands out: the item (None when the purchase became a refund) and the change. */
  datatype Dispensed = Dispensed(item: Option<SnackItem>, change: Change)

  const Rows: nat := 5
  const Columns: nat := 5

  /** The selected slot, if any, is one of the machine's slots. */
  predicate WellFormed(m: Machine)
  {
    m.selected.Some? ==> m.selected.value < |m.slots|
  }

  /**
   The machine invariant: well-formed, no negative money or stock, and every slot
   within its capacity.
   */
  ghost predicate Valid(m: Machine)
  {
    && WellFormed(m)
    && m.balance >= 0
    && m.salesTotal >= 0
    && NonNegative(m.ledger)
    && forall i :: 0 <= i < |m.slots| ==> WithinCapacity(m.slots[i])
  }

  /**
   A freshly built machine: a 5 x 5 grid of empty slots, nothing selected, no money,
   an empty ledger, functional and waiting for money.
   */
  function Initial(): (m: Machine)
    ensures |m.slots| == Rows * Columns
    ensures forall i :: 0 <= i < |m.slots| ==> m.slots[i].item.None? && m.slots[i].quantity == 0
    ensures m.balance == 0 && m.salesTotal == 0 && m.selected.None? && !m.confirmed
    ensures forall p :: Count(m.ledger, p) == 0
    ensures m.functional && m.state == IdleWaitingCustomerMoneyEntry
    ensures Valid(m)
  {
    Machine(true, false, 0, 0, seq(Rows * Columns, _ => EmptySlot), map[],
            IdleWaitingCustomerMoneyEntry, None)
  }

  /**
   Switches the machine on or off: a functional machine waits for money, a
   non-functional one is out of service. Nothing else changes.
   */
  function SetFunctional(m: Machine, functional: bool): (r: Machine)
    ensures r.functional == functional
    ensures r.state == IdleWaitingCustomerMoneyEntry <==> functional
    ensures r.state == OutOfService <==> !functional
    ensures r.(functional := m.functional, state := m.state) == m
  {
    m.(functional := functional,
       state := if functional then IdleWaitingCustomerMoneyEntry else OutOfService)
  }

  /** The confirm button: raises the confirm flag and changes nothing else. */
  function Confirm(m: Machine): (r: Machine)
    ensures r.confirmed
    ensures r.(confirmed := m.confirmed) == m
  {
    m.(confirmed := true)
  }

  /**
   Selects `slot` and moves to processing, whatever happens next. An unconfirmed
   request fails first; a confirmed one on an empty slot fails as sold out; otherwise
   the flag is lowered and the slot's item is returned. A stocked slot without an item
   fails once the flag is lowered, where the Java code dereferences the missing item
   to display it.
   */
  function ProcessRequest(m: Machine, slot: nat): (r: Step<SnackItem>)
    requires slot < |m.slots|
    ensures r.machine.selected == Some(slot)
    ensures r.machine.state == ProcessingCustomerSelection
    ensures r.outcome == Failure(RequestNotConfirmed) <==> !m.confirmed
    ensures r.outcome == Failure(SnackSoldOut) <==> m.confirmed && m.slots[slot].quantity == 0
    ensures r.outcome == Failure(NoItemInSlot) <==>
              m.confirmed && m.slots[slot].quantity != 0 && m.slots[slot].item.None?
    ensures r.outcome.Success? <==> m.confirmed && m.slots[slot].quantity != 0 && m.slots[slot].item.Some?
    ensures r.outcome.Success? ==> m.slots[slot].item == Some(r.outcome.value)
    ensures r.machine.confirmed <==> m.confirmed && m.slots[slot].quantity == 0
    ensures r.machine.(selected := m.selected, state := m.state, confirmed := m.confirmed) == m
  {
    var m1 := m.(selected := Some(slot), state := ProcessingCustomerSelection);
    if !m.confirmed then Step(m1, Failure(RequestNotConfirmed))
    else if m.slots[slot].quantity == 0 then Step(m1, Failure(SnackSoldOut))
    else
      match m.slots[slot].item
      case None => Step(m1.(confirmed := false), Failure(NoItemInSlot))
      case Some(item) => Step(m1.(confirmed := false), Success(item))
  }

  /** The validation of the money slot an entry goes into: it passes exactly the entries the slot accepts. */
  function ValidateAt(slot: MoneySlot, entry: Payable): (r: Outcome<PaymentError>)
    ensures r.Pass? <==> Accepts(slot, entry)
    ensures r == Fail(InvalidEntry) <==> !SlotKind(slot, entry)
  {
    match slot
    case ThroughCoinSlot => CoinSlot.Validate(entry)
    case ThroughNoteSlot => NoteSlot.Validate(entry)
    case ThroughCardSlot => CardSlot.Validate(entry)
  }

  /** Whether an entry is of the kind a slot is for: a coin, a note or a card. */
  predicate SlotKind(slot: MoneySlot, entry: Payable)
  {
    match slot
    case ThroughCoinSlot => entry.Coin?
    case ThroughNoteSlot => entry.Note?
    case ThroughCardSlot => entry.Card?
  }

  /** Whether a slot takes an entry: a coin of 10, 25, 50 or 100 cents, a $20 or $50 note, any card. */
  predicate Accepts(slot: MoneySlot, entry: Payable)
  {
    match slot
    case ThroughCoinSlot => entry.Coin? && entry.cents in {10, 25, 50, 100}
    case ThroughNoteSlot => entry.Note? && entry.cents in {2000, 5000}
    case ThroughCardSlot => entry.Card?
  }

  /**
   Inserts `entry` into `slot`. A refused entry changes nothing and reports why; an
   accepted one adds its worth to the balance and one unit of it to the ledger (a card
   included), leaving everything else, the state among it, as it was.
   */
  function InsertMoney(m: Machine, slot: MoneySlot, entry: Payable): (r: Step<()>)
    ensures r.outcome.Success? <==> Accepts(slot, entry)
    ensures r.outcome.Failure? ==> r.machine == m
    ensures r.outcome == Failure(InvalidPayment(InvalidEntry)) <==> !SlotKind(slot, entry)
    ensures r.outcome.Success? ==> r.machine.balance == m.balance + Worth(entry)
    ensures r.outcome.Success? ==> Count(r.machine.ledger, entry) == Count(m.ledger, entry) + 1
    ensures r.outcome.Success? ==> forall q :: q != entry ==> Count(r.machine.ledger, q) == Count(m.ledger, q)
    ensures r.machine.(balance := m.balance, ledger := m.ledger) == m
    ensures Valid(m) ==> Valid(r.machine)
  {
    match ValidateAt(slot, entry)
    case Fail(e) => Step(m, Failure(InvalidPayment(e)))
    case Pass => Step(m.(balance := m.balance + Worth(entry), ledger := Add(m.ledger, entry, 1)), Success(()))
  }

  /** Whether the balance covers the price of the selected slot's item. */
  function IsSelectedItemFullyPaid(m: Machine): (r: bool)
    requires WellFormed(m) && m.selected.Some? && m.slots[m.selected.value].item.Some?
    ensures r <==> m.balance - m.slots[m.selected.value].item.value.price >= 0
  {
    m.balance >= m.slots[m.selected.value].item.value.price
  }

  /**
   Takes the selected item out of its slot once it is paid for and the change for the
   overpayment can be made, adding its price to the sales total. Each failure leaves
   the machine as it was; the change is only checked here, not taken.
   */
  function DispenseSelectedSnackItem(m: Machine): (r: Step<SnackItem>)
    requires WellFormed(m)
    ensures r.outcome.Failure? ==> r.machine == m
    ensures r.outcome == Failure(NoSelection) <==> m.selected.None?
    ensures r.outcome == Failure(NoItemInSlot) <==> m.selected.Some? && m.slots[m.selected.value].item.None?
    ensures r.outcome.Success? ==>
              && m.selected.Some?
              && var k := m.selected.value;
              && m.slots[k].item == Some(r.outcome.value)
              && m.balance >= r.outcome.value.price
              && CanProduceChangeForAmount(m.ledger, m.balance - r.outcome.value.price)
              && m.slots[k].quantity != 0
              && r.machine.slots == m.slots[k := m.slots[k].(quantity := m.slots[k].quantity - 1)]
              && r.machine.salesTotal == m.salesTotal + r.outcome.value.price
              && r.machine.(slots := m.slots, salesTotal := m.salesTotal) == m
    ensures m.selected.Some? && m.slots[m.selected.value].item.Some? ==>
              var price := m.slots[m.selected.value].item.value.price;
              (r.outcome.Success? <==>
                 && m.balance >= price
                 && CanProduceChangeForAmount(m.ledger, m.balance - price)
                 && m.slots[m.selected.value].quantity != 0)
  {
    if m.selected.None? then Step(m, Failure(NoSelection))
    else
      var k := m.selected.value;
      match m.slots[k].item
      case None => Step(m, Failure(NoItemInSlot))
      case Some(item) =>
        if !IsSelectedItemFullyPaid(m) then Step(m, Failure(ItemNotFullyPaid))
        else if !CanProduceChangeForAmount(m.ledger, m.balance - item.price) then
          Step(m, Failure(InsufficientChangeInInventory))
        else
          match DispenseSnackItem(m.slots[k])
          case Failure(e) => Step(m, Failure(DispenseFailed(e)))
          case Success(s) =>
            Step(m.(slots := m.slots[k := s], salesTotal := m.salesTotal + item.price), Success(item))
  }

  /**
   Makes the change for the overpayment on the selected item, deducts it from the
   ledger, clears the selection and zeroes the balance.
   */
  function CalculateAndDispenseChange(m: Machine): (r: (Machine, Change))
    requires WellFormed(m) && m.selected.Some? && m.slots[m.selected.value].item.Some?
    requires CanProduceChangeForAmount(m.ledger, m.balance - m.slots[m.selected.value].item.value.price)
    ensures var owed := m.balance - m.slots[m.selected.value].item.value.price;
            && ValidChange(m.ledger, r.1)
            && Value(r.1) == (if owed > 0 then owed else 0)
            && (forall p :: Count(r.0.ledger, p) == Count(m.ledger, p) - Count(r.1, p))
    ensures r.0.balance == 0 && r.0.selected.None?
    ensures r.0.(ledger := m.ledger, balance := m.balance, selected := m.selected) == m
  {
    var owed := m.balance - m.slots[m.selected.value].item.value.price;
    var change := GetChange(m.ledger, owed).value;
    ApplyGetChange(m.ledger, owed, change);
    (m.(ledger := ApplyChange(m.ledger, change), balance := 0, selected := None), change)
  }

  /**
   Refunds the whole balance: the state becomes refunding first; then the change for
   the balance is made from the ledger, deducted from it, and the balance and the
   selection are cleared. When that change cannot be made the error propagates and
   only the state has moved.
   */
  function Refund(m: Machine): (r: Step<Change>)
    ensures r.machine.state == RefundingCustomerMoney
    ensures r.outcome.Failure? <==> m.balance > 0 && !CanProduceChangeForAmount(m.ledger, m.balance)
    ensures r.outcome.Failure? ==>
              r.outcome.error == InsufficientChangeInInventory && r.machine == m.(state := RefundingCustomerMoney)
    ensures r.outcome.Success? ==>
              && ValidChange(m.ledger, r.outcome.value)
              && Value(r.outcome.value) == (if m.balance > 0 then m.balance else 0)
              && (forall p :: Count(r.machine.ledger, p) == Count(m.ledger, p) - Count(r.outcome.value, p))
              && r.machine.balance == 0 && r.machine.selected.None?
              && r.machine.(ledger := m.ledger, balance := m.balance, selected := m.selected, state := m.state) == m
  {
    var m1 := m.(state := RefundingCustomerMoney);
    match GetChange(m.ledger, m.balance)
    case Failure(_) => Step(m1, Failure(InsufficientChangeInInventory))
    case Success(change) =>
      ApplyGetChange(m.ledger, m.balance, change);
      Step(m1.(ledger := ApplyChange(m.ledger, change), balance := 0, selected := None), Success(change))
  }

  /** The cancel button: a refund of the whole balance. */
  function CancelRequestAndRefundCustomer(m: Machine): (r: Step<Change>)
    ensures r.machine.state == RefundingCustomerMoney
    ensures r.outcome.Success? ==>
              Value(r.outcome.value) == (if m.balance > 0 then m.balance else 0) && r.machine.balance == 0
    ensures r.outcome.Failure? ==> r.machine.balance == m.balance && r.machine.ledger == m.ledger
  {
    Refund(m)
  }

  /**
   Dispenses the selected item and the change for the overpayment. Payment and slot
   errors propagate; when the change cannot be made, the purchase turns into a refund
   of the whole balance and no item is handed out.
   */
  function DispenseSelectedItemAndCustomerChange(m: Machine): (r: Step<Dispensed>)
    requires WellFormed(m)
    ensures r.outcome.Success? ==> r.machine.balance == 0 && r.machine.selected.None?
    ensures r.outcome.Success? ==>
              (r.outcome.value.item.Some? <==> r.machine.state == DispensingSelectedItemAndCustomerChange)
    ensures r.outcome.Success? && r.outcome.value.item.None? ==> r.machine.state == RefundingCustomerMoney
    ensures r.outcome.Failure? && r.outcome.error != InsufficientChangeInInventory ==> r.machine == m
    ensures r.outcome.Failure? && r.outcome.error == InsufficientChangeInInventory ==>
              r.machine == m.(state := RefundingCustomerMoney)
  {
    var s := DispenseSelectedSnackItem(m);
    if s.outcome.Success? then
      var (m1, change) := CalculateAndDispenseChange(s.machine);
      Step(m1.(state := DispensingSelectedItemAndCustomerChange), Success(Dispensed(Some(s.outcome.value), change)))
    else if s.outcome.error == InsufficientChangeInInventory then
      var refund := Refund(s.machine);
      if refund.outcome.Success? then Step(refund.machine, Success(Dispensed(None, refund.outcome.value)))
      else Step(refund.machine, Failure(refund.outcome.error))
    else Step(s.machine, Failure(s.outcome.error))
  }

  /** Empties every slot: no item and quantity 0; each capacity is kept. */
  function ClearAllSnackSlots(slots: seq<SnackSlot>): (r: seq<SnackSlot>)
    ensures |r| == |slots|
    ensures forall i :: 0 <= i < |r| ==>
              r[i].item.None? && r[i].quantity == 0 && r[i].capacity == slots[i].capacity
  {
    seq(|slots|, i requires 0 <= i < |slots| => slots[i].(item := None, quantity := 0))
  }

  /**
   Resets the machine's contents: every slot emptied, the ledger cleared, no balance,
   no sales and no selection. The state and the flags are left as they were.
   */
  function ResetToInitialState(m: Machine): (r: Machine)
    ensures |r.slots| == |m.slots|
    ensures forall i :: 0 <= i < |r.slots| ==>
              r.slots[i].item.None? && r.slots[i].quantity == 0 && r.slots[i].capacity == m.slots[i].capacity
    ensures forall p :: Count(r.ledger, p) == 0
    ensures r.balance == 0 && r.salesTotal == 0 && r.selected.None?
    ensures r.state == m.state && r.confirmed == m.confirmed && r.functional == m.functional
  {
    m.(slots := ClearAllSnackSlots(m.slots), ledger := Clear(), balance := 0, salesTotal := 0, selected := None)
  }
}
